=== FILE: README.md ===
# Walmart review pipeline: verified model of the cleaning core

The system scrapes Walmart product reviews, cleans them and uploads them to S3, then has an LLM
summarise them. Two parts of it hold real logic, and this project models both in Dafny.

- **`/extract_id`** (server/app/main.py, repeated verbatim in backend/app/main.py).
  - It searches a product URL for `/ip/<segment>/<digits>` and returns the digits as the
    product id.
  - It answers HTTP 400 "Could not extract product ID" when the pattern does not occur.
  - `ProductId` writes the regular expression as a scanner over the string.
  - `ProductIdLemmas` proves what a caller can rely on.
- **`/data_clean`** (backend/app/main.py, lines 85-156). It takes a product id and a batch of
  raw review records, in this order:
  1. It checks whether `<product_id>.csv` already exists in the bucket `walmart-scraped-data`.
     If it does, it answers `cached` and does nothing else.
  2. Otherwise it reads the records into a table and drops the three feedback/title columns.
  3. It renames four columns.
  4. It rewrites three columns in place:
     - the customer id becomes `"C"` followed by the position;
     - the date is parsed;
     - the text is lower-cased and cleaned.
  5. It replaces missing cells with `None`.
  6. It uploads the table and answers `uploaded` with the row count.

  Every exception, including the handler's own 400 for a missing product id, reaches the client
  as status 500.
  - `TextClean` models `clean_text`, a chain of five whole-string rewrites, as total functions on
    strings. `TextCleanLemmas` proves its output grammar, its idempotence and that a run of junk
    between words becomes one separator.
  - `ReviewFrame` models the table.
    - Records are maps, and the columns are the union of their field names.
    - A record lacking a column contributes NaN.
    - It states the drop/rename and the per-row rewrites as functions.
    - It also has the in-place, column-by-column rewrite the source runs, as methods over an
      `array` of rows, proved equal to those functions.
  - `DataClean` puts the endpoint together as a function (`DataCleanResult`) and as a method
    built on the in-place transform (`DataClean.DataClean`).
  - `DataCleanLemmas` proves the endpoint's promises:
    - one row per record, in order, with the count equal to the input length;
    - the value of each output column;
    - the cache gate;
    - the all-or-nothing error paths.

The foreign parts are parameters:
- NFKD and `str.lower` are the fields of `TextClean.Unicode`.
- `pd.to_datetime` on one cell is `ReviewFrame.Env.toDatetime`.
- The S3 existence check is `DataClean.Probe`.
- The success of the upload is a boolean.

Where the code and its own comments or documentation disagree, the model follows the code:
- An empty batch has no columns, so `drop` raises and the request fails with 500. It does not
  yield an empty table.
- A batch without any `rating` field is not an error, because `rename` ignores absent columns.
  Only `position`, `review_submission_time`, `text` (or fields already named `customer_id`,
  `review_date`, `review_text`) and the three dropped columns are required.
- Provider fields other than the seven named ones pass through unchanged, except for the
  float upcast pandas applies to integer columns with missing cells (see `ReviewFrame.Fill`
  under "## Left out").
- The cleaned text can contain upper-case letters. Lower-casing happens before NFKD, and NFKD
  can produce capitals, e.g. from U+210C.
- The comment at backend/app/main.py:106 says curly quotes become `'`. NFKD does not map
  U+2019 to an apostrophe, so the model makes no such assumption: that character is stripped
  to a space.
- The `HTTPException(400)` for a missing product id is raised inside the `try`. It is
  re-wrapped as 500.

## Model

| member | source | states |
|---|---|---|
| ProductId.Matches | server/app/main.py:16 | the pattern `/ip/[^/]+/(\d+)` stated declaratively at a start, slash and digit end; the reference the scanner is proved against by `ProductId.MatchAt`, `ProductIdLemmas.ExtractIdSucceedsIffMatch` and `ExtractIdLeftmost` |
| Chars.IsSpace | backend/app/main.py:119 | Python's whitespace set, what `\s` matches and `strip()` removes; used by `TextClean.CollapseSpaces` |
| ProductId.NextSlash | server/app/main.py:16 | the end of the `[^/]+` segment: the first `/` at or after the start, or the end of the string |
| ProductId.DigitsEnd | server/app/main.py:16 | the greedy `(\d+)`: every character up to the result is a digit and the character at it is not |
| ProductId.MatchAt | server/app/main.py:16 | the pattern at one start position gives `Some(d)` exactly when `/ip/`, a non-empty slash-free segment, `/` and a maximal digit run occur there, and `d` is that run |
| ProductId.FirstMatch | server/app/main.py:32 | the scan of `re.search`: the result matches, and no earlier start from the given position matches |
| ProductId.Search | server/app/main.py:32 | `re.search(...).group(1)`: `Some` exactly when the scan `FirstMatch` finds a start position, and then the digits `MatchAt` reads there; what that means in terms of the pattern itself, both directions and leftmost, is stated by `ProductIdLemmas.ExtractIdSucceedsIffMatch` and `ProductIdLemmas.ExtractIdLeftmost` |
| ProductId.ExtractId | server/app/main.py:30-35 | `extract_id`: a null URL is searched as `""`, a match gives its digits, no match gives 400; its promises are `ProductIdLemmas.ExtractedIdIsDigits`, `ExtractIdSucceedsIffMatch`, `ExtractIdLeftmost`, `MissingUrlRejected` and `TrailingTextIgnored` |
| ProductIdLemmas.ExtractedIdIsDigits | server/app/main.py:30-35 | a successful extraction returns a non-empty string of decimal digits |
| ProductIdLemmas.ExtractIdSucceedsIffMatch | server/app/main.py:32-35 | extraction succeeds if and only if the pattern occurs somewhere in the URL; every failure is 400 "Could not extract product ID" |
| ProductIdLemmas.ExtractIdLeftmost | server/app/main.py:30-35 | the returned id is the full digit run of the leftmost occurrence of the pattern |
| ProductIdLemmas.MissingUrlRejected | server/app/main.py:32-34 | a null URL is searched as `""`; it and the empty URL are rejected with 400 "Could not extract product ID" |
| ProductIdLemmas.FirstMatchIs | server/app/main.py:32 | a matching position with no match before it is the one the scan stops at |
| ProductIdLemmas.MatchInPrefix | server/app/main.py:16 | a match whose slash lies inside a prefix is already a match of the prefix |
| ProductIdLemmas.MatchExtends | server/app/main.py:16 | appending text that does not start with a digit keeps a match and its digits |
| ProductIdLemmas.NoEarlierMatch | server/app/main.py:32 | appending text creates no match before the first match of the original URL |
| ProductIdLemmas.TrailingTextIgnored | server/app/main.py:32-35 | a suffix such as `?classType=...` after the id does not change the extracted id |
| TextClean.CleanText | backend/app/main.py:102-104 | a non-string argument gives the empty string |
| TextClean.SubRuns | backend/app/main.py:110-119 | `re.sub(P+, " ", s)`: each maximal run of a class becomes one space; its promises are `TextCleanLemmas.SubRunsChars`, `SubRunsNoop`, `SubRunsAppend` and `SubRunsAllInClass` |
| TextClean.StripNonAscii | backend/app/main.py:110 | step 2, non-ASCII runs to one space; `TextCleanLemmas.MiddlePassesKept` and `StripNonAsciiSeparator` state what it leaves |
| TextClean.KeepWordChars | backend/app/main.py:113 | step 3, runs outside `[A-Za-z0-9' ]` to one space; `TextCleanLemmas.MiddlePassesKept` and `KeepWordCharsSeparator` state what it leaves |
| TextClean.DropStray | backend/app/main.py:116 | step 4 with the neighbours of each apostrophe judged on the input; stated by `TextCleanLemmas.DropStrayOnlyApostrophes`, `FlankedApostropheKept`, `StrayApostropheDropped`, `LeadingApostropheDropped`, `DropStrayFlanked` and `DropStrayNoop` |
| TextClean.DropStrayApostrophes | backend/app/main.py:116 | step 4 on a whole string; see `TextClean.DropStray` and `TextCleanLemmas.DoubledApostropheDropped` |
| TextClean.TrimStart | backend/app/main.py:119 | `strip` at the front; stated by `TextCleanLemmas.TrimStartRemovesSpaces` and `TrimStartFacts` |
| TextClean.TrimEnd | backend/app/main.py:119 | `strip` at the back; stated by `TextCleanLemmas.TrimEndRemovesSpaces` and `TrimEndFacts` |
| TextClean.CollapseSpaces | backend/app/main.py:119 | step 5; stated by `TextCleanLemmas.CollapsedShape`, `CollapsedSingleSpaced`, `CollapseNoop`, `TrimStartRemovesSpaces` and `TrimEndRemovesSpaces` |
| TextClean.Scrub | backend/app/main.py:110-119 | steps 2 to 5 in source order; stated by `TextCleanLemmas.ScrubInGrammar`, `ScrubFixesGrammar` and `ScrubSeparates` |
| TextCleanLemmas.SubRunsChars | backend/app/main.py:110-119 | a run substitution only emits spaces and characters of its input outside the class |
| TextCleanLemmas.SubRunsNoop | backend/app/main.py:110-119 | a run substitution leaves a string with no character of the class unchanged |
| TextCleanLemmas.SubRunsAppend | backend/app/main.py:110-119 | a run substitution over a concatenation is the substitution of each part, the second part knowing whether the first ended in a run |
| TextCleanLemmas.SubRunsAllInClass | backend/app/main.py:110-119 | a non-empty run of the class becomes one space, or nothing when it continues a run |
| TextCleanLemmas.CollapsedSingleSpaced | backend/app/main.py:119 | after `\s+` becomes one space, no two whitespace characters are adjacent |
| TextCleanLemmas.CollapsedFlanked | backend/app/main.py:119 | collapsing whitespace keeps every apostrophe between two letters or digits |
| TextCleanLemmas.CollapseNoop | backend/app/main.py:119 | collapsing leaves a single-spaced string whose only whitespace is `' '` unchanged |
| TextCleanLemmas.DropStrayFlanked | backend/app/main.py:116 | after stray apostrophes are removed from `[A-Za-z0-9' ]` text, every apostrophe left has a letter or digit on each side |
| TextCleanLemmas.DropStrayNoop | backend/app/main.py:116 | the removal leaves a string whose apostrophes are all flanked unchanged |
| TextCleanLemmas.DropStrayNoApostrophe | backend/app/main.py:116 | the removal leaves a string without apostrophes unchanged |
| TextCleanLemmas.DropStrayChars | backend/app/main.py:116 | every character of the result occurs in the input |
| TextCleanLemmas.DropStrayOnlyApostrophes | backend/app/main.py:116 | the removal deletes apostrophes and nothing else: with apostrophes taken out, input and result are equal, and the result is no longer than the input |
| TextCleanLemmas.DropStrayAppend | backend/app/main.py:116 | each apostrophe is judged by its own neighbours in the input: text ending in a non-apostrophe is treated the same whatever follows it |
| TextCleanLemmas.StrayApostropheDropped | backend/app/main.py:116 | an apostrophe with a non-word character, or the end of the text, on either side in the input is deleted, and the text around it is cleaned as if it were not there |
| TextCleanLemmas.LeadingApostropheDropped | backend/app/main.py:116 | an apostrophe at the start of the text is deleted |
| TextCleanLemmas.DoubledApostropheDropped | backend/app/main.py:116 | `a''b` becomes `ab`: neither apostrophe of a doubled pair has a word character on both sides |
| TextCleanLemmas.FlankedApostropheKept | backend/app/main.py:116 | an apostrophe with a word character directly before and after it in the input survives, as in `it's`, wherever other apostrophes are removed |
| TextCleanLemmas.TrimStartFacts | backend/app/main.py:119 | `strip` at the front leaves no leading whitespace and keeps the grammar |
| TextCleanLemmas.TrimEndFacts | backend/app/main.py:119 | `strip` at the back leaves a prefix with no trailing whitespace and keeps the grammar |
| TextCleanLemmas.TrimStartRemovesSpaces | backend/app/main.py:119 | `lstrip` of any string: the result is a suffix of the input, every character removed is whitespace, and the result does not start with whitespace |
| TextCleanLemmas.TrimEndRemovesSpaces | backend/app/main.py:119 | `rstrip` of any string: the result is a prefix of the input, every character removed is whitespace, and the result does not end with whitespace |
| TextCleanLemmas.FlankedAt | backend/app/main.py:116 | the recursive apostrophe condition equals its index-wise statement |
| TextCleanLemmas.SingleSpacedAt | backend/app/main.py:119 | the recursive spacing condition equals its index-wise statement |
| TextCleanLemmas.MiddlePassesKept | backend/app/main.py:110-116 | after steps 2 to 4 only `[A-Za-z0-9' ]` remains and every apostrophe is flanked |
| TextCleanLemmas.CollapsedShape | backend/app/main.py:119 | step 5 keeps the character set and the flanking and trims both ends |
| TextCleanLemmas.ScrubInGrammar | backend/app/main.py:110-119 | whatever the decomposition produced, steps 2 to 5 give a string in the output grammar |
| TextCleanLemmas.CleanTextInGrammar | backend/app/main.py:102-120 | every result has only ASCII letters, digits, apostrophes and spaces; no space at either end; no two spaces in a row; every apostrophe between two letters or digits |
| TextCleanLemmas.ScrubFixesGrammar | backend/app/main.py:110-119 | steps 2 to 5 leave every string of the output grammar unchanged |
| TextCleanLemmas.CleanTextIdempotent | backend/app/main.py:102-120 | with a decomposition that fixes ASCII text, cleaning a cleaned text changes nothing |
| TextCleanLemmas.StripNonAsciiSeparator | backend/app/main.py:110 | step 2 turns junk between words into junk without letters, digits or apostrophes |
| TextCleanLemmas.KeepWordCharsSeparator | backend/app/main.py:113 | step 3 turns such junk into a non-empty run of spaces |
| TextCleanLemmas.SubRunsMiddle | backend/app/main.py:110-113 | a substitution with nothing to replace in the words around the junk only rewrites the junk |
| TextCleanLemmas.FirstPassesSeparate | backend/app/main.py:110-113 | steps 2 and 3 leave the two words around the junk with spaces between them |
| TextCleanLemmas.LastPassesJoin | backend/app/main.py:116-119 | steps 4 and 5 reduce those spaces to exactly one |
| TextCleanLemmas.ScrubSeparates | backend/app/main.py:110-119 | word, junk, word gives the two words separated by one space and never joined |
| TextCleanLemmas.CleanTextSeparates | backend/app/main.py:102-120 | when the decomposed review is word, junk, word, the result is the two words separated by one space |
| ReviewFrame.Columns | backend/app/main.py:123 | the columns of `pd.DataFrame(records)`; stated by `ReviewFrame.ColumnsAreFieldNames` |
| ReviewFrame.ColumnsAreFieldNames | backend/app/main.py:123 | a name is a column of the frame exactly when some record has a field of that name |
| ReviewFrame.Fill | backend/app/main.py:123 | a record becomes a row with exactly the frame's columns, NaN where it lacks a field |
| ReviewFrame.FromJson | backend/app/main.py:123 | a decoded JSON field as a table cell: null, integer or string |
| ReviewFrame.CellOf | backend/app/main.py:123 | the cell a record gives a column, NaN where it lacks the field; stated through `ReviewFrame.Fill` and the `DataCleanLemmas.CleanRecord` lemmas |
| ReviewFrame.Reshape | backend/app/main.py:127-135 | after drop and rename a row has exactly the columns `ReshapeColumns` gives, and no parsed date yet |
| ReviewFrame.ReshapeColumns | backend/app/main.py:127-135 | the columns after drop and rename; stated by `ReviewFrame.Reshape` and `ReshapeColumnsFresh` |
| ReviewFrame.MissingDropped | backend/app/main.py:127 | the column `drop` raises on; stated by `ReviewFrame.MissingDroppedIff` |
| ReviewFrame.MissingDroppedIff | backend/app/main.py:127 | `drop` fails exactly when one of `negative_feedback`, `positive_feedback`, `title` is absent, and names an absent one |
| ReviewFrame.ReshapeColumnsFresh | backend/app/main.py:127-135 | no dropped and no old name survives the drop and the rename |
| ReviewFrame.NatToString | backend/app/main.py:137 | `str` of a natural number is a non-empty run of decimal digits |
| ReviewFrame.NatToStringValue | backend/app/main.py:137 | `str(n)` of a natural number denotes `n` in decimal (by the independent reading `DigitsValue`) and has no leading zero unless `n` is 0 |
| ReviewFrame.IntToString | backend/app/main.py:137 | `str` of an integer: a minus sign before the digits of a negative number; the digits are stated by `ReviewFrame.NatToString` and `NatToStringValue` |
| ReviewFrame.AsStr | backend/app/main.py:137-139 | `astype(str)` of a cell: `nan` for a missing cell, `None` for null, `str` of an integer, a string as is; used by `DataCleanLemmas.CustomerIdFromPosition` and `ReviewTextCleaned` |
| ReviewFrame.CustomerId | backend/app/main.py:137 | `"C"` before `astype(str)` of the cell; stated by `DataCleanLemmas.CustomerIdFromPosition` |
| ReviewFrame.WithId | backend/app/main.py:137 | a row with its `customer_id` cell rewritten; stated by `ReviewFrame.AssignIds` |
| ReviewFrame.ParseDate | backend/app/main.py:138 | `pd.to_datetime` of one cell, missing cells giving NaT; used by `DataCleanLemmas.DatesParsed`, `ReviewDateParsed`, `MissingDateIsNone` and `UnparseableDateFails` |
| ReviewFrame.DateCell | backend/app/main.py:138 | a parse result as a cell, NaT as NaN; stated by `DataCleanLemmas.ReviewDateParsed` and `MissingDateIsNone` |
| ReviewFrame.WithDate | backend/app/main.py:138 | a row with its `review_date` cell parsed; stated by `ReviewFrame.AssignDates` |
| ReviewFrame.DatesParse | backend/app/main.py:138 | every date cell of the table parses; stated by `ReviewFrame.DatesParseAll` and `TransformError` |
| ReviewFrame.ReviewText | backend/app/main.py:139-140 | lower-case the string form, then `clean_text`; stated by `DataCleanLemmas.ReviewTextCleaned` |
| ReviewFrame.WithText | backend/app/main.py:139-140 | a row with its `review_text` cell cleaned; stated by `ReviewFrame.AssignTexts` |
| ReviewFrame.NoneForNaN | backend/app/main.py:143 | one NaN cell becomes `None`; stated by `ReviewFrame.FillNone` |
| ReviewFrame.NoneForNaNRow | backend/app/main.py:143 | every NaN cell becomes `None`; stated by `ReviewFrame.FillNone` and `DataCleanLemmas.TableShape` |
| ReviewFrame.CanonicalRow | backend/app/main.py:137-143 | a reshaped row after all rewrites; its cells are stated by the `DataCleanLemmas.CleanRecord` lemmas |
| ReviewFrame.TransformError | backend/app/main.py:137-140 | the rewrites succeed exactly when the id, date and text columns exist and every date parses |
| ReviewFrame.CanonicalRows | backend/app/main.py:137-143 | one rewritten row per row, in order, each the canonical form of its input row |
| ReviewFrame.AssignIds | backend/app/main.py:137 | in place, every row's id becomes `"C"` followed by its string form; nothing else changes |
| ReviewFrame.DatesParseAll | backend/app/main.py:138 | the loop reports whether every date of the table parses |
| ReviewFrame.AssignDates | backend/app/main.py:138 | in place, every row's date is replaced by its parse, with NaT as NaN |
| ReviewFrame.AssignTexts | backend/app/main.py:139-140 | in place, every row's text is replaced by `clean_text` of its lower-cased string form |
| ReviewFrame.FillNone | backend/app/main.py:143 | in place, every NaN cell of every row becomes `None` |
| ReviewFrame.TransformColumns | backend/app/main.py:137-143 | the in-place column rewrites fail with exactly the error of `TransformError`; on success every row is its canonical form; on failure the table holds the rewrites that ran before the error |
| DataClean.S3Key | backend/app/main.py:92 | the object key `<product_id>.csv`; stated by `DataCleanLemmas.CacheHitSkipsPipeline` |
| DataClean.S3Uri | backend/app/main.py:99 | the URI `s3://walmart-scraped-data/<key>`; stated by `DataCleanLemmas.CacheHitSkipsPipeline` |
| DataClean.CachedMessage | backend/app/main.py:98 | the cache-hit message `File already exists in S3: <key>`; stated by `DataCleanLemmas.CacheHitSkipsPipeline` |
| DataClean.Build | backend/app/main.py:123-143 | the cleaned table or the first error; stated by `DataCleanLemmas.RowOfRecord`, `TableShape`, the per-column lemmas and the failure lemmas |
| DataClean.DataCleanResult | backend/app/main.py:85-156 | the endpoint's answer; stated by `DataCleanLemmas.MissingProductIdIs500`, `CacheHitSkipsPipeline`, `BuildFailureIsWhole` and `UploadedCountIsInputLength` |
| DataClean.ReshapedRows | backend/app/main.py:123-135 | the reshaped table has one row per record |
| DataClean.ReshapedRowsShape | backend/app/main.py:123-135 | every reshaped row has the same columns, and no parsed date yet |
| DataClean.RunTransform | backend/app/main.py:137-143 | the in-place transform of a copy of the table gives the transform's error, or the canonical rows |
| DataClean.BuildTable | backend/app/main.py:123-143 | building the table and rewriting it in place agrees with the table function `Build` |
| DataClean.DataClean | backend/app/main.py:85-156 | the endpoint, run with in-place rewrites, gives the response `DataCleanResult` describes |
| DataCleanLemmas.CleanRecordShape | backend/app/main.py:123-143 | a record's output row has exactly the reshaped columns and no NaN cell |
| DataCleanLemmas.CleanRecordCustomerId | backend/app/main.py:130-137 | the id cell is `"C"` followed by the string form of the record's position |
| DataCleanLemmas.CleanRecordRating | backend/app/main.py:131-143 | the rating cell is the record's rating, or `None` when the record has none |
| DataCleanLemmas.CleanRecordDate | backend/app/main.py:132-143 | the date cell is the parsed timestamp, or `None` when the parse gives NaT |
| DataCleanLemmas.CleanRecordText | backend/app/main.py:133-140 | the text cell is `clean_text` of the lower-cased string form of the record's text |
| DataCleanLemmas.CleanRecordOther | backend/app/main.py:123-143 | any other column carries the record's own value, or `None` when the record lacks the field |
| DataCleanLemmas.BuildSuccess | backend/app/main.py:123-143 | a successful build passed the drop and the rewrites, and its table is the canonical reshaped rows |
| DataCleanLemmas.CanonicalRowsAt | backend/app/main.py:137-143 | row `i` of the rewritten table is the canonical form of row `i` |
| DataCleanLemmas.ReshapedRowAt | backend/app/main.py:123-135 | row `i` of the reshaped table comes from record `i` |
| DataCleanLemmas.BuiltRow | backend/app/main.py:123-143 | for a table that passed the drop and the rewrites, row `i` is the cleaned form of record `i` |
| DataCleanLemmas.RowOfRecord | backend/app/main.py:123-143 | after a successful build, row `i` is the cleaned form of record `i`, and there is one row per record |
| DataCleanLemmas.TableShape | backend/app/main.py:123-143 | after a successful build every row has the same reshaped columns, and no cell is NaN |
| DataCleanLemmas.CustomerIdFromPosition | backend/app/main.py:130-137 | row `i`'s `customer_id` is `"C"` followed by the string form of record `i`'s `position` |
| DataCleanLemmas.RatingUnchanged | backend/app/main.py:131 | row `i`'s `customer_rating` equals record `i`'s raw `rating` |
| DataCleanLemmas.MissingRatingIsNone | backend/app/main.py:131-143 | a record without a rating gets `None` as its `customer_rating` |
| DataCleanLemmas.DatesParsed | backend/app/main.py:138 | after a successful build every record's date parsed |
| DataCleanLemmas.ReviewDateParsed | backend/app/main.py:132-138 | row `i`'s `review_date` is the timestamp the parser gave for record `i` |
| DataCleanLemmas.MissingDateIsNone | backend/app/main.py:138-143 | a date that parses as NaT becomes `None` |
| DataCleanLemmas.ReviewTextCleaned | backend/app/main.py:133-140 | row `i`'s `review_text` is the cleaned, lower-cased text of record `i`, in the output grammar |
| DataCleanLemmas.OtherFieldsPassThrough | backend/app/main.py:123-127 | any field other than the seven named ones passes through unchanged |
| DataCleanLemmas.MissingDroppedColumnFails | backend/app/main.py:127 | a batch lacking one of the three dropped columns fails as a whole, naming a missing one |
| DataCleanLemmas.EmptyBatchFails | backend/app/main.py:123-127 | an empty batch has no columns and fails at the drop |
| DataCleanLemmas.DatesFailAt | backend/app/main.py:138 | one unparseable date makes the rewrites fail with the date error |
| DataCleanLemmas.UnparseableDateFails | backend/app/main.py:138-156 | one unparseable date fails the whole batch, with no partial table |
| DataCleanLemmas.MissingProductIdIs500 | backend/app/main.py:88-156 | a missing or empty product id is answered with status 500, whatever the store holds |
| DataCleanLemmas.CacheHitSkipsPipeline | backend/app/main.py:95-100 | when the object exists, the answer is `cached` with the URI `s3://walmart-scraped-data/<id>.csv` and the message `File already exists in S3: <id>.csv`, whatever the batch is |
| DataCleanLemmas.BuildFailureIsWhole | backend/app/main.py:123-156 | any failure of the transform becomes one 500 answer with no upload |
| DataCleanLemmas.UploadedCountIsInputLength | backend/app/main.py:95-152 | an `uploaded` answer means the id was present, the cache missed and the upload went through; its count is the number of input records and its table is the built table |

## Left out

- S3 I/O is not modelled. Loading reviews, the existence check and the upload
  (backend/app/main.py:37-59) are boto3 calls over the network. The existence check is the
  input `Probe`:
  - a 404 gives `NotFound`;
  - any other error gives `ProbeError`, which becomes 500.

  The upload is a boolean saying whether it succeeded. The CSV serialisation of the table is
  not modelled.
- `/summarize` and its prompt construction (backend/app/main.py:158-218) are not modelled.
  They are calls to a foreign LLM.
- The scraper (backend/shared/scraper.py) is not modelled. It makes SerpAPI HTTP calls.
- The Streamlit front end (frontend/) is not modelled. It is UI and HTTP client code.
- FastAPI routing, CORS and pydantic validation are not modelled. The `url` field is modelled
  as possibly absent, so the `or ""` fallback is kept.
- NFKD and `str.lower` are parameters, not Unicode tables. Every grammar property holds for any
  decomposition. Idempotence assumes only that the decomposition fixes ASCII text.
- `pd.to_datetime` is a parameter giving a timestamp, NaT or a failure for each cell. Missing
  cells always give NaT. Pandas parses a column as a whole; the model requires every cell to
  parse, and the format the parser infers from the whole column is not captured.
- JSON values are limited to null, integers and strings. Floats, booleans, lists and nested
  objects are not modelled.
- Status-500 answers carry a `Cause` rather than the exception's message text.
- `product_id` is modelled as a string. Non-string JSON values for it are not modelled.
- ProductId.DigitsEnd: `\d` is modelled as ASCII `0-9`. Python's `\d` on a `str` also matches
  other Unicode decimal digits.
- TextClean.DropStray: `\w` and `\B` are judged on ASCII word characters. Steps 2 and 3 leave
  only `[A-Za-z0-9' ]`, so on that input this is exact.
- DataCleanLemmas.CustomerIdFromPosition: pandas upcasts an integer column with missing values
  to float. In that case `str` gives `"7.0"`, which the model does not capture; it states the
  integer form.
- DataCleanLemmas.RatingUnchanged: the same float upcasting of a rating column with missing
  values is not modelled.
- ReviewFrame.Fill: pandas stores an integer column that has a missing or null cell as float,
  with the null as NaN, so such cells are uploaded as `3.0` and a null position gives `Cnan`.
  The model keeps `Int(n)` and `Null` as they came. This affects
  `DataCleanLemmas.CleanRecordCustomerId`, `CleanRecordRating`, `CleanRecordOther`,
  `CustomerIdFromPosition`, `RatingUnchanged` and `OtherFieldsPassThrough`. Columns holding
  strings are not upcast, so for them the stated values are exact.
- ReviewFrame.Reshape: when a raw record already has a field named like a rename target (for
  example `customer_id`), pandas keeps both columns under one label. The model lets the
  renamed value win.
- DataCleanLemmas.CleanRecordCustomerId: integer cells are kept as `Int(n)`; see the float
  upcast under `ReviewFrame.Fill`.
- DataCleanLemmas.CleanRecordRating: integer cells are kept as `Int(n)`; see the float upcast
  under `ReviewFrame.Fill`.
- DataCleanLemmas.CleanRecordOther: integer cells are kept as `Int(n)`; see the float upcast
  under `ReviewFrame.Fill`.
- DataCleanLemmas.OtherFieldsPassThrough: integer cells are kept as `Int(n)`; see the float
  upcast under `ReviewFrame.Fill`.
- Strings holding lone surrogates are not modelled. A Python `str` can hold them (for example
  from a JSON `\ud800` escape), but a Dafny `char` is a Unicode scalar value.

=== FILE: Chars.dfy ===
/** Character classes used by the regular expressions of the review pipeline and of the
    product-id pattern. Characters are Unicode scalar values; a Python `str` can also hold
    lone surrogates, which this model does not represent. */
module Chars {

  /** Inside the 7-bit range `[\x00-\x7F]`. */
  predicate IsAscii(c: char) {
    c as int <= 0x7F
  }

  predicate IsAsciiLetter(c: char) {
    ('A' <= c <= 'Z') || ('a' <= c <= 'z')
  }

  /** An ASCII decimal digit, `[0-9]`. */
  predicate IsDigit(c: char) {
    '0' <= c <= '9'
  }

  predicate IsAlnum(c: char) {
    IsAsciiLetter(c) || IsDigit(c)
  }

  /** The ASCII part of the regex class `\w`: letters, digits and underscore. */
  predicate IsWordChar(c: char) {
    IsAlnum(c) || c == '_'
  }

  /** A character of the class `[A-Za-z0-9' ]`, the only ones the cleaner keeps. */
  predicate IsKept(c: char) {
    IsAlnum(c) || c == '\'' || c == ' '
  }

  /** Python's whitespace: what `\s` matches in a `str` pattern and what `str.strip()` removes. */
  predicate IsSpace(c: char) {
    var n := c as int;
    (0x09 <= n <= 0x0D) || (0x1C <= n <= 0x20) || n == 0x85 || n == 0xA0 || n == 0x1680
    || (0x2000 <= n <= 0x200A) || n == 0x2028 || n == 0x2029 || n == 0x202F || n == 0x205F
    || n == 0x3000
  }

  lemma KeptFacts(c: char)
    requires IsKept(c)
    ensures IsAscii(c)
    ensures IsSpace(c) <==> c == ' '
    ensures IsWordChar(c) <==> IsAlnum(c)
  {
  }
}

=== FILE: DataClean.dfy ===
/** The `/data_clean` endpoint (backend/app/main.py): the product-id check, the cache gate,
    the batch transform and the upload, with every failure reported as status 500. */
module DataClean {
  import opened Wrappers
  import opened TextClean
  import opened ReviewFrame

  const Bucket: string := "walmart-scraped-data"

  /** The request body: `product_id` and `json_result`, either of which may be absent. */
  datatype Request = Request(productId: Option<string>, jsonResult: Option<seq<Record>>)

  /** The answer of the object store's existence check for the product's key. */
  datatype Probe = Exists | NotFound | ProbeError

  datatype Response =
    | Cached(s3Uri: string, message: string)
    | Uploaded(s3Uri: string, count: nat, table: seq<Row>)
    | HttpError(status: int, cause: Cause)

  function S3Key(productId: string): string {
    productId + ".csv"
  }

  function S3Uri(key: string): string {
    "s3://" + Bucket + "/" + key
  }

  /** The `message` of the cache-hit answer. */
  function CachedMessage(key: string): string {
    "File already exists in S3: " + key
  }

  /** The table after `drop` and `rename`, one row per record, in order; `cols` are the
      columns of the frame the records were read into. */
  function ReshapedRows(batch: seq<Record>, cols: set<string>): (rows: seq<Row>)
    ensures |rows| == |batch|
  {
    seq(|batch|, i requires 0 <= i < |batch| => Reshape(Fill(batch[i], cols)))
  }

  /** Every reshaped row has the reshaped columns, and no cell is a parsed date yet. */
  lemma ReshapedRowsShape(batch: seq<Record>, cols: set<string>)
    ensures forall i :: 0 <= i < |batch| ==>
      ReshapedRows(batch, cols)[i].Keys == ReshapeColumns(cols) && RawRow(ReshapedRows(batch, cols)[i])
  {
    forall i | 0 <= i < |batch|
      ensures ReshapedRows(batch, cols)[i].Keys == ReshapeColumns(cols)
      ensures RawRow(ReshapedRows(batch, cols)[i])
    {
      assert ReshapedRows(batch, cols)[i] == Reshape(Fill(batch[i], cols));
    }
  }

  /** Lines 123 to 143: the cleaned table, or the first error raised while building it. */
  function Build(env: Env, batch: seq<Record>): Result<seq<Row>, Cause> {
    var cols := Columns(batch);
    match MissingDropped(cols)
    case Some(c) => Failure(MissingColumn(c))
    case None =>
      ReshapedRowsShape(batch, cols);
      var rows := ReshapedRows(batch, cols);
      var cols' := ReshapeColumns(cols);
      match TransformError(env, cols', rows)
      case Some(e) => Failure(e)
      case None => Success(CanonicalRows(env, cols', rows))
  }

  /** `data_clean` as a function of its request and of what the object store answers. */
  function DataCleanResult(env: Env, req: Request, probe: Probe, uploadOk: bool): Response {
    if req.productId.None? || req.productId.value == [] then
      // the HTTPException(400) is caught by the handler's own `except Exception`
      HttpError(500, MissingProductId)
    else
      var key := S3Key(req.productId.value);
      var uri := S3Uri(key);
      match probe
      case ProbeError => HttpError(500, CacheProbeFailed)
      case Exists => Cached(uri, CachedMessage(key))
      case NotFound =>
        match req.jsonResult
        case None => HttpError(500, MissingJsonResult)
        case Some(batch) =>
          match Build(env, batch)
          case Failure(c) => HttpError(500, c)
          case Success(rows) =>
            if uploadOk then Uploaded(uri, |rows|, rows) else HttpError(500, UploadFailed)
  }

  /** Lines 137 to 143 run in place on a fresh copy of the reshaped table. */
  method RunTransform(env: Env, cols: set<string>, rows: seq<Row>) returns (res: Result<seq<Row>, Cause>)
    requires forall i :: 0 <= i < |rows| ==> rows[i].Keys == cols && RawRow(rows[i])
    ensures TransformError(env, cols, rows).Some? ==>
      res == Failure(TransformError(env, cols, rows).value)
    ensures TransformError(env, cols, rows).None? ==> res == Success(CanonicalRows(env, cols, rows))
  {
    var df := new Row[|rows|](i requires 0 <= i < |rows| => rows[i]);
    assert df[..] == rows;
    var err := TransformColumns(env, cols, df);
    if err.Some? {
      return Failure(err.value);
    }
    assert forall i :: 0 <= i < |rows| ==> df[..][i] == CanonicalRow(env, rows[i]);
    assert df[..] == CanonicalRows(env, cols, rows);
    return Success(df[..]);
  }

  /** Lines 123 to 143 as the source runs them: the table is built, then its columns are
      rewritten in place. */
  method BuildTable(env: Env, batch: seq<Record>) returns (res: Result<seq<Row>, Cause>)
    ensures res == Build(env, batch)
  {
    var cols := Columns(batch);
    var missing := MissingDropped(cols);
    if missing.Some? {
      return Failure(MissingColumn(missing.value));
    }
    ReshapedRowsShape(batch, cols);
    res := RunTransform(env, ReshapeColumns(cols), ReshapedRows(batch, cols));
  }

  /** `data_clean`, built on the in-place transform. */
  method DataClean(env: Env, req: Request, probe: Probe, uploadOk: bool) returns (resp: Response)
    ensures resp == DataCleanResult(env, req, probe, uploadOk)
  {
    if req.productId.None? || req.productId.value == [] {
      return HttpError(500, MissingProductId);
    }
    var key := S3Key(req.productId.value);
    var uri := S3Uri(key);
    if probe == ProbeError {
      return HttpError(500, CacheProbeFailed);
    } else if probe == Exists {
      return Cached(uri, CachedMessage(key));
    }
    if req.jsonResult.None? {
      return HttpError(500, MissingJsonResult);
    }
    var built := BuildTable(env, req.jsonResult.value);
    if built.Failure? {
      return HttpError(500, built.error);
    }
    if !uploadOk {
      return HttpError(500, UploadFailed);
    }
    return Uploaded(uri, |built.value|, built.value);
  }
}

=== FILE: DataCleanLemmas.dfy ===
/** What `data_clean` promises about the uploaded table and about its failures. */
module DataCleanLemmas {
  import opened Wrappers
  import opened TextClean
  import opened ReviewFrame
  import opened DataClean
  import TextCleanLemmas

  // ---------------------------------------------------------------------------------------
  // One record

  /** The frame has the three columns that lines 137 to 140 rewrite. */
  predicate HasRewrittenColumns(cols: set<string>) {
    "customer_id" in ReshapeColumns(cols) && "review_date" in ReshapeColumns(cols)
    && "review_text" in ReshapeColumns(cols)
  }

  /** The uploaded row of one record of a frame with columns `cols`. */
  function CleanRecord(env: Env, r: Record, cols: set<string>): Row
    requires HasRewrittenColumns(cols)
  {
    CanonicalRow(env, Reshape(Fill(r, cols)))
  }

  /** Every row has the reshaped columns and no NaN is left in it. */
  lemma CleanRecordShape(env: Env, r: Record, cols: set<string>)
    requires HasRewrittenColumns(cols)
    ensures CleanRecord(env, r, cols).Keys == ReshapeColumns(cols)
    ensures forall k :: k in CleanRecord(env, r, cols) ==> CleanRecord(env, r, cols)[k] != NaN
  {
  }

  /** `customer_id` is `"C"` followed by the string form of the record's position. */
  lemma CleanRecordCustomerId(env: Env, r: Record, cols: set<string>)
    requires HasRewrittenColumns(cols) && "position" in cols
    ensures CleanRecord(env, r, cols)["customer_id"] == Str("C" + AsStr(CellOf(r, "position")))
  {
    var row := Reshape(Fill(r, cols));
    assert row["customer_id"] == CellOf(r, "position");
  }

  /** `customer_rating` is the record's rating, with a missing rating as `None`. */
  lemma CleanRecordRating(env: Env, r: Record, cols: set<string>)
    requires HasRewrittenColumns(cols) && "rating" in cols
    ensures "customer_rating" in CleanRecord(env, r, cols)
    ensures "rating" in r ==> CleanRecord(env, r, cols)["customer_rating"] == FromJson(r["rating"])
    ensures "rating" !in r ==> CleanRecord(env, r, cols)["customer_rating"] == Null
  {
    var row := Reshape(Fill(r, cols));
    assert row["customer_rating"] == CellOf(r, "rating");
  }

  /** `review_date` is the parsed submission time; a missing or unset time becomes `None`. */
  lemma CleanRecordDate(env: Env, r: Record, cols: set<string>)
    requires HasRewrittenColumns(cols) && "review_submission_time" in cols
    ensures ParseDate(env, CellOf(r, "review_submission_time")).At? ==>
      CleanRecord(env, r, cols)["review_date"] == Time(ParseDate(env, CellOf(r, "review_submission_time")).ns)
    ensures !ParseDate(env, CellOf(r, "review_submission_time")).At? ==>
      CleanRecord(env, r, cols)["review_date"] == Null
  {
    var row := Reshape(Fill(r, cols));
    assert row["review_date"] == CellOf(r, "review_submission_time");
  }

  /** `review_text` is the record's text as a string, lower-cased and cleaned. */
  lemma CleanRecordText(env: Env, r: Record, cols: set<string>)
    requires HasRewrittenColumns(cols) && "text" in cols
    ensures CleanRecord(env, r, cols)["review_text"] ==
      Str(CleanText(env.unicode, Text(env.unicode.lower(AsStr(CellOf(r, "text"))))))
  {
    var row := Reshape(Fill(r, cols));
    assert row["review_text"] == CellOf(r, "text");
  }

  /** A column that is neither dropped, renamed nor rewritten keeps the record's value. */
  lemma CleanRecordOther(env: Env, r: Record, cols: set<string>, k: string)
    requires HasRewrittenColumns(cols) && k in cols
    requires k !in DroppedColumns && k !in RenamedColumns
    requires k != "customer_id" && k != "customer_rating" && k != "review_date" && k != "review_text"
    ensures k in CleanRecord(env, r, cols)
    ensures k in r ==> CleanRecord(env, r, cols)[k] == FromJson(r[k])
    ensures k !in r ==> CleanRecord(env, r, cols)[k] == Null
  {
    var row := Reshape(Fill(r, cols));
    assert row[k] == CellOf(r, k);
  }

  // ---------------------------------------------------------------------------------------
  // The whole batch

  /** A successful build passed every check and is the canonical form of the reshaped table. */
  lemma BuildSuccess(env: Env, batch: seq<Record>, rows: seq<Row>)
    requires Build(env, batch) == Success(rows)
    ensures MissingDropped(Columns(batch)).None?
    ensures TransformError(env, ReshapeColumns(Columns(batch)), ReshapedRows(batch, Columns(batch))).None?
    ensures rows == CanonicalRows(env, ReshapeColumns(Columns(batch)), ReshapedRows(batch, Columns(batch)))
  {
    ReshapedRowsShape(batch, Columns(batch));
  }

  lemma CanonicalRowsAt(env: Env, cols: set<string>, rs: seq<Row>, i: int)
    requires forall i :: 0 <= i < |rs| ==> rs[i].Keys == cols && RawRow(rs[i])
    requires TransformError(env, cols, rs).None?
    requires 0 <= i < |rs|
    ensures CanonicalRows(env, cols, rs)[i] == CanonicalRow(env, rs[i])
  {
  }

  lemma ReshapedRowAt(batch: seq<Record>, cols: set<string>, i: int)
    requires 0 <= i < |batch|
    ensures ReshapedRows(batch, cols)[i] == Reshape(Fill(batch[i], cols))
  {
  }

  /** The row of record `i` in a table that passed every check. */
  lemma BuiltRow(env: Env, batch: seq<Record>, cols: set<string>, rows: seq<Row>, i: int)
    requires MissingDropped(cols).None?
    requires TransformError(env, ReshapeColumns(cols), ReshapedRows(batch, cols)).None?
    requires rows == CanonicalRows(env, ReshapeColumns(cols), ReshapedRows(batch, cols))
    requires 0 <= i < |batch|
    ensures |rows| == |batch|
    ensures DroppedColumns <= cols
    ensures HasRewrittenColumns(cols)
    ensures "review_submission_time" in cols ==>
      ParseDate(env, CellOf(batch[i], "review_submission_time")) != Unparseable
    ensures rows[i] == CleanRecord(env, batch[i], cols)
  {
    MissingDroppedIff(cols);
    ReshapedRowsShape(batch, cols);
    CanonicalRowsAt(env, ReshapeColumns(cols), ReshapedRows(batch, cols), i);
    ReshapedRowAt(batch, cols, i);
    if "review_submission_time" in cols {
      assert ReshapedRows(batch, cols)[i]["review_date"] == CellOf(batch[i], "review_submission_time");
    }
  }

  /** A built table has one row per record, in order, each the cleaned form of its record;
      the frame had the three dropped columns, and every date parsed. */
  lemma RowOfRecord(env: Env, batch: seq<Record>, rows: seq<Row>, i: int)
    requires Build(env, batch) == Success(rows)
    requires 0 <= i < |batch|
    ensures |rows| == |batch|
    ensures DroppedColumns <= Columns(batch)
    ensures HasRewrittenColumns(Columns(batch))
    ensures "review_submission_time" in Columns(batch) ==>
      ParseDate(env, CellOf(batch[i], "review_submission_time")) != Unparseable
    ensures rows[i] == CleanRecord(env, batch[i], Columns(batch))
  {
    BuildSuccess(env, batch, rows);
    BuiltRow(env, batch, Columns(batch), rows, i);
  }

  /** Every row has the same columns, the reshaped ones (which hold neither a dropped column
      nor an old name, by `ReshapeColumnsFresh`), and no NaN is left in it. */
  lemma TableShape(env: Env, batch: seq<Record>, rows: seq<Row>, i: int)
    requires Build(env, batch) == Success(rows)
    requires 0 <= i < |batch|
    ensures |rows| == |batch|
    ensures rows[i].Keys == ReshapeColumns(Columns(batch))
    ensures forall k :: k in rows[i] ==> rows[i][k] != NaN
  {
    RowOfRecord(env, batch, rows, i);
    CleanRecordShape(env, batch[i], Columns(batch));
  }

  /** The customer id is `"C"` followed by the string form of the record's position. */
  lemma CustomerIdFromPosition(env: Env, batch: seq<Record>, rows: seq<Row>, i: int)
    requires Build(env, batch) == Success(rows)
    requires 0 <= i < |batch|
    requires "position" in Columns(batch)
    ensures rows[i]["customer_id"] == Str("C" + AsStr(CellOf(batch[i], "position")))
  {
    RowOfRecord(env, batch, rows, i);
    CleanRecordCustomerId(env, batch[i], Columns(batch));
  }

  /** The rating is the record's own rating, unchanged. */
  lemma RatingUnchanged(env: Env, batch: seq<Record>, rows: seq<Row>, i: int)
    requires Build(env, batch) == Success(rows)
    requires 0 <= i < |batch|
    requires "rating" in batch[i]
    ensures "customer_rating" in rows[i]
    ensures rows[i]["customer_rating"] == FromJson(batch[i]["rating"])
  {
    ColumnsAreFieldNames(batch, "rating");
    RowOfRecord(env, batch, rows, i);
    CleanRecordRating(env, batch[i], Columns(batch));
  }

  /** A record without a rating, in a batch where some record has one, gets `None`. */
  lemma MissingRatingIsNone(env: Env, batch: seq<Record>, rows: seq<Row>, i: int)
    requires Build(env, batch) == Success(rows)
    requires 0 <= i < |batch|
    requires "rating" in Columns(batch) && "rating" !in batch[i]
    ensures "customer_rating" in rows[i]
    ensures rows[i]["customer_rating"] == Null
  {
    RowOfRecord(env, batch, rows, i);
    CleanRecordRating(env, batch[i], Columns(batch));
  }

  /** A built table had no unparseable date. */
  lemma DatesParsed(env: Env, batch: seq<Record>, rows: seq<Row>, i: int)
    requires Build(env, batch) == Success(rows)
    requires 0 <= i < |batch|
    requires "review_submission_time" in Columns(batch)
    ensures ParseDate(env, CellOf(batch[i], "review_submission_time")) != Unparseable
  {
    RowOfRecord(env, batch, rows, i);
  }

  /** The review date is the parsed submission time. */
  lemma ReviewDateParsed(env: Env, batch: seq<Record>, rows: seq<Row>, i: int, ns: int)
    requires Build(env, batch) == Success(rows)
    requires 0 <= i < |batch|
    requires "review_submission_time" in Columns(batch)
    requires ParseDate(env, CellOf(batch[i], "review_submission_time")) == At(ns)
    ensures rows[i]["review_date"] == Time(ns)
  {
    RowOfRecord(env, batch, rows, i);
    CleanRecordDate(env, batch[i], Columns(batch));
  }

  /** A missing or unset submission time becomes `None`, not NaT. */
  lemma MissingDateIsNone(env: Env, batch: seq<Record>, rows: seq<Row>, i: int)
    requires Build(env, batch) == Success(rows)
    requires 0 <= i < |batch|
    requires "review_submission_time" in Columns(batch)
    requires ParseDate(env, CellOf(batch[i], "review_submission_time")) == NaT
    ensures rows[i]["review_date"] == Null
  {
    RowOfRecord(env, batch, rows, i);
    CleanRecordDate(env, batch[i], Columns(batch));
  }

  /** The review text is the record's text, as a string, lower-cased and cleaned, and so is
      in the cleaner's output grammar. */
  lemma ReviewTextCleaned(env: Env, batch: seq<Record>, rows: seq<Row>, i: int)
    requires Build(env, batch) == Success(rows)
    requires 0 <= i < |batch|
    requires "text" in Columns(batch)
    ensures rows[i]["review_text"] == Str(CleanText(env.unicode,
      Text(env.unicode.lower(AsStr(CellOf(batch[i], "text"))))))
    ensures InGrammar(rows[i]["review_text"].s)
  {
    RowOfRecord(env, batch, rows, i);
    CleanRecordText(env, batch[i], Columns(batch));
    TextCleanLemmas.CleanTextInGrammar(env.unicode, Text(env.unicode.lower(AsStr(CellOf(batch[i], "text")))));
  }

  /** A provider field outside the dropped, renamed and rewritten ones is carried over. */
  lemma OtherFieldsPassThrough(env: Env, batch: seq<Record>, rows: seq<Row>, i: int, k: string)
    requires Build(env, batch) == Success(rows)
    requires 0 <= i < |batch|
    requires k in batch[i] && k !in DroppedColumns && k !in RenamedColumns
    requires k != "customer_id" && k != "customer_rating" && k != "review_date" && k != "review_text"
    ensures k in rows[i] && rows[i][k] == FromJson(batch[i][k])
  {
    ColumnsAreFieldNames(batch, k);
    RowOfRecord(env, batch, rows, i);
    CleanRecordOther(env, batch[i], Columns(batch), k);
  }

  /** A frame without `title`, `positive_feedback` or `negative_feedback` is refused as a
      whole: `drop` raises, naming a column the frame lacks. */
  lemma MissingDroppedColumnFails(env: Env, batch: seq<Record>)
    requires !(DroppedColumns <= Columns(batch))
    ensures Build(env, batch).Failure?
    ensures Build(env, batch).error.MissingColumn?
    ensures Build(env, batch).error.name in DroppedColumns - Columns(batch)
  {
    MissingDroppedIff(Columns(batch));
  }

  /** An empty batch gives a frame with no columns at all, so `drop` raises on it. */
  lemma EmptyBatchFails(env: Env)
    ensures Build(env, []) == Failure(MissingColumn("negative_feedback"))
  {
  }

  lemma DatesFailAt(env: Env, batch: seq<Record>, cols: set<string>, i: int)
    requires "position" in cols && "review_submission_time" in cols
    requires 0 <= i < |batch|
    requires ParseDate(env, CellOf(batch[i], "review_submission_time")) == Unparseable
    ensures TransformError(env, ReshapeColumns(cols), ReshapedRows(batch, cols)) == Some(UnparseableDate)
  {
    ReshapedRowsShape(batch, cols);
    ReshapedRowAt(batch, cols, i);
    assert ReshapedRows(batch, cols)[i]["review_date"] == CellOf(batch[i], "review_submission_time");
  }

  /** One unparseable date refuses the whole batch. */
  lemma UnparseableDateFails(env: Env, batch: seq<Record>, i: int)
    requires DroppedColumns <= Columns(batch)
    requires "position" in Columns(batch) && "review_submission_time" in Columns(batch)
    requires 0 <= i < |batch|
    requires ParseDate(env, CellOf(batch[i], "review_submission_time")) == Unparseable
    ensures Build(env, batch) == Failure(UnparseableDate)
  {
    MissingDroppedIff(Columns(batch));
    DatesFailAt(env, batch, Columns(batch), i);
  }

  // ---------------------------------------------------------------------------------------
  // The endpoint

  /** A missing `product_id` is a client error, but the handler reports it as status 500. */
  lemma MissingProductIdIs500(env: Env, req: Request, probe: Probe, uploadOk: bool)
    requires req.productId == None || req.productId == Some("")
    ensures DataCleanResult(env, req, probe, uploadOk) == HttpError(500, MissingProductId)
  {
  }

  /** When the object store already holds the product's table, nothing is cleaned or
      uploaded, whatever the batch: the answer names the existing object. */
  lemma CacheHitSkipsPipeline(env: Env, req: Request, uploadOk: bool)
    requires req.productId.Some? && req.productId.value != []
    ensures DataCleanResult(env, req, Exists, uploadOk) ==
      Cached("s3://walmart-scraped-data/" + req.productId.value + ".csv",
             "File already exists in S3: " + req.productId.value + ".csv")
  {
    var id := req.productId.value;
    assert S3Uri(S3Key(id)) == "s3://walmart-scraped-data/" + id + ".csv";
  }

  /** A failed build is one status-500 error for the whole request: nothing is uploaded. */
  lemma BuildFailureIsWhole(env: Env, req: Request, uploadOk: bool, batch: seq<Record>)
    requires req.productId.Some? && req.productId.value != []
    requires req.jsonResult == Some(batch)
    requires Build(env, batch).Failure?
    ensures DataCleanResult(env, req, NotFound, uploadOk) == HttpError(500, Build(env, batch).error)
  {
  }

  /** An upload happens only on a cache miss with a batch that builds, reports as many rows
      as the request held records, and uploads exactly the cleaned table. */
  lemma UploadedCountIsInputLength(env: Env, req: Request, probe: Probe, uploadOk: bool)
    requires DataCleanResult(env, req, probe, uploadOk).Uploaded?
    ensures req.productId.Some? && req.productId.value != []
    ensures req.jsonResult.Some? && probe == NotFound && uploadOk
    ensures DataCleanResult(env, req, probe, uploadOk).count == |req.jsonResult.value|
    ensures Build(env, req.jsonResult.value) == Success(DataCleanResult(env, req, probe, uploadOk).table)
  {
  }
}

=== FILE: ProductId.dfy ===
/** Product-id extraction (`extract_id` in server/app/main.py, repeated in backend/app/main.py):
    a search for the pattern `/ip/[^/]+/(\d+)` in a product URL, written as a scanner. */
module ProductId {
  import opened Wrappers
  import opened Chars

  /** The HTTP error the endpoint raises. */
  datatype HttpError = HttpError(status: int, detail: string)

  const NoMatch := HttpError(400, "Could not extract product ID")

  /** The regular expression's meaning at start `i`: the literal `/ip/`, a non-empty segment
      without `/` ending at the slash at `k`, and the digits `s[k+1..e]`, which the greedy `\d+`
      takes as far as they go. */
  ghost predicate Matches(s: string, i: int, k: int, e: int) {
    && 0 <= i && i + 4 < k < e <= |s|
    && s[i..i + 4] == "/ip/"
    && (forall p :: i + 4 <= p < k ==> s[p] != '/')
    && s[k] == '/'
    && k + 1 < e
    && (forall p :: k + 1 <= p < e ==> IsDigit(s[p]))
    && (e == |s| || !IsDigit(s[e]))
  }

  /** The first `/` at or after `j`, or the end of `s`. */
  function NextSlash(s: string, j: nat): (k: nat)
    requires j <= |s|
    ensures j <= k <= |s|
    ensures forall p :: j <= p < k ==> s[p] != '/'
    ensures k < |s| ==> s[k] == '/'
    decreases |s| - j
  {
    if j == |s| || s[j] == '/' then j else NextSlash(s, j + 1)
  }

  /** The end of the run of digits that starts at `j`. */
  function DigitsEnd(s: string, j: nat): (e: nat)
    requires j <= |s|
    ensures j <= e <= |s|
    ensures forall p :: j <= p < e ==> IsDigit(s[p])
    ensures e == |s| || !IsDigit(s[e])
    decreases |s| - j
  {
    if j == |s| || !IsDigit(s[j]) then j else DigitsEnd(s, j + 1)
  }

  /** The pattern tried at one start position. */
  function MatchAt(s: string, i: nat): (r: Option<string>)
    requires i <= |s|
    ensures r.Some? ==> exists k, e :: Matches(s, i, k, e) && r.value == s[k + 1..e]
    ensures forall k, e :: Matches(s, i, k, e) ==> r == Some(s[k + 1..e])
  {
    if i + 4 <= |s| && s[i..i + 4] == "/ip/" then
      var k := NextSlash(s, i + 4);
      if i + 4 < k < |s| then
        var e := DigitsEnd(s, k + 1);
        if k + 1 < e then
          assert Matches(s, i, k, e);
          Some(s[k + 1..e])
        else None
      else None
    else None
  }

  /** The leftmost start position from `from` on where the pattern matches, or `|s| + 1`
      when there is none: the scan `re.search` performs. */
  function FirstMatch(s: string, from: nat): (i: nat)
    requires from <= |s|
    ensures from <= i <= |s| + 1
    ensures i <= |s| ==> MatchAt(s, i).Some?
    ensures forall j :: from <= j < i && j <= |s| ==> MatchAt(s, j).None?
    decreases |s| - from
  {
    if MatchAt(s, from).Some? then from
    else if from == |s| then |s| + 1
    else FirstMatch(s, from + 1)
  }

  /** `re.search(...).group(1)`: the digits of the leftmost match, if any. */
  function Search(s: string): (r: Option<string>)
    ensures r.Some? <==> FirstMatch(s, 0) <= |s|
    ensures r.Some? ==> r == MatchAt(s, FirstMatch(s, 0))
  {
    var i := FirstMatch(s, 0);
    if i <= |s| then MatchAt(s, i) else None
  }

  /** `extract_id`: a missing URL is searched as the empty string. */
  function ExtractId(url: Option<string>): Result<string, HttpError> {
    var s := if url.Some? then url.value else "";
    match Search(s)
    case Some(d) => Success(d)
    case None => Failure(NoMatch)
  }
}

=== FILE: ProductIdLemmas.dfy ===
/** What a caller of `extract_id` can rely on. */
module ProductIdLemmas {
  import opened Wrappers
  import opened Chars
  import opened ProductId

  /** A product id is a non-empty run of decimal digits. */
  lemma ExtractedIdIsDigits(url: Option<string>, d: string)
    requires ExtractId(url) == Success(d)
    ensures d != []
    ensures forall p :: 0 <= p < |d| ==> IsDigit(d[p])
  {
    var s := if url.Some? then url.value else "";
    var i := FirstMatch(s, 0);
    var k, e :| Matches(s, i, k, e) && d == s[k + 1..e];
    forall p | 0 <= p < |d| ensures IsDigit(d[p]) {
      assert d[p] == s[k + 1 + p];
    }
  }

  /** Extraction succeeds exactly when the pattern occurs somewhere in the URL; otherwise the
      answer is the 400 error. */
  lemma ExtractIdSucceedsIffMatch(s: string)
    ensures ExtractId(Some(s)).Success? <==> exists i, k, e :: Matches(s, i, k, e)
    ensures ExtractId(Some(s)).Failure? ==>
      ExtractId(Some(s)).error == HttpError(400, "Could not extract product ID")
  {
    if ExtractId(Some(s)).Success? {
      var i := FirstMatch(s, 0);
      var k, e :| Matches(s, i, k, e);
    } else {
      forall i, k, e | 0 <= i <= |s| ensures !Matches(s, i, k, e) {
        var r := MatchAt(s, i);
      }
    }
  }

  /** The id is the digit run of the leftmost occurrence of the pattern. */
  lemma ExtractIdLeftmost(s: string, d: string)
    requires ExtractId(Some(s)) == Success(d)
    ensures exists i, k, e ::
      && Matches(s, i, k, e) && d == s[k + 1..e]
      && forall j, k', e' :: Matches(s, j, k', e') ==> i <= j
  {
    var i := FirstMatch(s, 0);
    var k, e :| Matches(s, i, k, e) && d == s[k + 1..e];
    forall j, k', e' | Matches(s, j, k', e') ensures i <= j {
      assert MatchAt(s, j).Some?;
    }
  }

  /** A missing or empty URL is rejected with status 400. */
  lemma MissingUrlRejected()
    ensures ExtractId(None) == Failure(HttpError(400, "Could not extract product ID"))
    ensures ExtractId(Some("")) == Failure(HttpError(400, "Could not extract product ID"))
  {
    assert MatchAt("", 0).None?;
  }

  /** A match at `j` in `s + t` whose slash lies inside `s` is a match of `s`, up to where
      the digits of `s` end. */
  lemma MatchInPrefix(s: string, t: string, j: int, k: int, e: int)
    requires Matches(s + t, j, k, e)
    requires k + 1 < |s|
    ensures Matches(s, j, k, DigitsEnd(s, k + 1))
  {
    var st := s + t;
    assert st[j..j + 4] == s[j..j + 4];
    assert st[k + 1] == s[k + 1];
    forall p | j + 4 <= p < k ensures s[p] != '/' { assert st[p] == s[p]; }
  }

  /** The scan from `from` stops at the first start position where the pattern matches. */
  lemma {:induction false} FirstMatchIs(s: string, from: nat, i: nat)
    requires from <= i <= |s| && MatchAt(s, i).Some?
    requires forall j :: from <= j < i ==> MatchAt(s, j).None?
    ensures FirstMatch(s, from) == i
    decreases i - from
  {
    if from < i {
      FirstMatchIs(s, from + 1, i);
    }
  }

  /** A match stays a match, with the same digits, when the text after it does not start
      with a digit. */
  lemma MatchExtends(s: string, t: string, i: int, k: int, e: int)
    requires Matches(s, i, k, e)
    requires t == [] || !IsDigit(t[0])
    ensures Matches(s + t, i, k, e) && (s + t)[k + 1..e] == s[k + 1..e]
  {
    var st := s + t;
    assert st[i..i + 4] == s[i..i + 4];
    forall p | i + 4 <= p < k ensures st[p] != '/' { assert st[p] == s[p]; }
    forall p | k + 1 <= p < e ensures IsDigit(st[p]) { assert st[p] == s[p]; }
    if e < |s| { assert st[e] == s[e]; } else if t != [] { assert st[e] == t[0]; }
    assert st[k + 1..e] == s[k + 1..e];
  }

  /** No start before the first match of `s` matches in `s + t`: its segment would end at
      or before the slash of that match, so it would already have matched in `s`. */
  lemma NoEarlierMatch(s: string, t: string, i: int, k: int, e: int, j: nat)
    requires Matches(s, i, k, e)
    requires j < i
    requires MatchAt(s, j).None?
    ensures MatchAt(s + t, j).None?
  {
    var st := s + t;
    if MatchAt(st, j).Some? {
      var k', e' :| Matches(st, j, k', e');
      assert st[k] == s[k];
      assert k' <= k;
      MatchInPrefix(s, t, j, k', e');
    }
  }

  /** Whatever follows the id, such as a `?query`, does not change it, provided it does not
      start with a digit that would extend the run. */
  lemma TrailingTextIgnored(s: string, t: string, d: string)
    requires ExtractId(Some(s)) == Success(d)
    requires t == [] || !IsDigit(t[0])
    ensures ExtractId(Some(s + t)) == Success(d)
  {
    var i := FirstMatch(s, 0);
    var k, e :| Matches(s, i, k, e) && d == s[k + 1..e];
    MatchExtends(s, t, i, k, e);
    assert MatchAt(s + t, i) == Some(d);
    forall j | 0 <= j < i ensures MatchAt(s + t, j).None? {
      NoEarlierMatch(s, t, i, k, e, j);
    }
    FirstMatchIs(s + t, 0, i);
  }
}

=== FILE: ReviewFrame.dfy ===
/** The batch transform of `data_clean` (backend/app/main.py): raw review records become a
    table, three provider columns are dropped, four are renamed, and the id, date and text
    columns are rewritten in place before the table is uploaded. */
module ReviewFrame {
  import opened Wrappers
  import opened Chars
  import opened TextClean

  /** A field of a raw review record, as decoded from the provider's JSON. */
  datatype Json = JNull | JInt(n: int) | JStr(s: string)

  /** A raw review record: field name to value. Records need not share their fields. */
  type Record = map<string, Json>

  /** A cell of the table: `NaN` where a record lacks a column of the table, `Null` for
      Python's `None`, and `Time` for a parsed timestamp (nanoseconds since the epoch). */
  datatype Value = NaN | Null | Int(n: int) | Str(s: string) | Time(ns: int)

  /** One row of the table: column name to cell. */
  type Row = map<string, Value>

  /** What `pd.to_datetime` makes of one cell. */
  datatype DateParse = At(ns: int) | NaT | Unparseable

  /** The foreign code the transform calls: Unicode tables and the date parser. */
  datatype Env = Env(unicode: Unicode, toDatetime: Value -> DateParse)

  /** Why a request fails. Every failure reaches the client as status 500. */
  datatype Cause =
    | MissingProductId
    | CacheProbeFailed
    | MissingJsonResult
    | MissingColumn(name: string)
    | UnparseableDate
    | UploadFailed

  const DroppedColumns: set<string> := {"negative_feedback", "positive_feedback", "title"}
  const RenamedColumns: set<string> := {"position", "rating", "review_submission_time", "text"}

  // ---------------------------------------------------------------------------------------
  // Building the table

  /** The columns of `pd.DataFrame(records)`: every field name of any record. */
  function Columns(batch: seq<Record>): set<string> {
    if batch == [] then {} else batch[0].Keys + Columns(batch[1..])
  }

  /** A name is a column exactly when some record has a field of that name. */
  lemma {:induction false} ColumnsAreFieldNames(batch: seq<Record>, c: string)
    ensures c in Columns(batch) <==> exists i :: 0 <= i < |batch| && c in batch[i]
  {
    if batch != [] {
      ColumnsAreFieldNames(batch[1..], c);
      if c in Columns(batch[1..]) {
        var j :| 0 <= j < |batch[1..]| && c in batch[1..][j];
        assert c in batch[j + 1];
      }
      if exists i :: 0 <= i < |batch| && c in batch[i] {
        var i :| 0 <= i < |batch| && c in batch[i];
        if i > 0 {
          assert c in batch[1..][i - 1];
        }
      }
    }
  }

  function FromJson(j: Json): Value {
    match j
    case JNull => Null
    case JInt(n) => Int(n)
    case JStr(s) => Str(s)
  }

  /** The cell a record contributes to a column: NaN where it has no such field. */
  function CellOf(r: Record, c: string): Value {
    if c in r then FromJson(r[c]) else NaN
  }

  /** The record as a row of a table with columns `cols`. */
  function Fill(r: Record, cols: set<string>): (row: Row)
    ensures row.Keys == cols
    ensures RawRow(row)
  {
    map c | c in cols :: CellOf(r, c)
  }

  /** A cell that came from JSON, not from the date parser. */
  predicate IsRaw(v: Value) {
    !v.Time?
  }

  predicate RawRow(r: Row) {
    forall k :: k in r ==> IsRaw(r[k])
  }

  /** `drop(columns=[...])` then `rename(columns={...})` on one row. A renamed column
      replaces a column that already had the new name. */
  function Reshape(r: Row): (r': Row)
    ensures r'.Keys == ReshapeColumns(r.Keys)
    ensures RawRow(r) ==> RawRow(r')
  {
    var kept := map k | k in r && k !in DroppedColumns && k !in RenamedColumns :: r[k];
    var m1 := if "position" in r then kept["customer_id" := r["position"]] else kept;
    var m2 := if "rating" in r then m1["customer_rating" := r["rating"]] else m1;
    var m3 := if "review_submission_time" in r then m2["review_date" := r["review_submission_time"]] else m2;
    if "text" in r then m3["review_text" := r["text"]] else m3
  }

  /** The columns of the table after the drop and the rename. */
  function ReshapeColumns(cols: set<string>): set<string> {
    (cols - DroppedColumns - RenamedColumns)
    + (if "position" in cols then {"customer_id"} else {})
    + (if "rating" in cols then {"customer_rating"} else {})
    + (if "review_submission_time" in cols then {"review_date"} else {})
    + (if "text" in cols then {"review_text"} else {})
  }

  /** The first of the dropped columns that the table lacks; `drop` raises on it. */
  function MissingDropped(cols: set<string>): Option<string> {
    if "negative_feedback" !in cols then Some("negative_feedback")
    else if "positive_feedback" !in cols then Some("positive_feedback")
    else if "title" !in cols then Some("title")
    else None
  }

  /** `drop` raises exactly when one of the three columns is absent, and names one that is. */
  lemma MissingDroppedIff(cols: set<string>)
    ensures MissingDropped(cols).None? <==> DroppedColumns <= cols
    ensures MissingDropped(cols).Some? ==>
      MissingDropped(cols).value in DroppedColumns && MissingDropped(cols).value !in cols
  {
  }

  /** After the drop and the rename no dropped column and no old column name is left. */
  lemma ReshapeColumnsFresh(cols: set<string>)
    ensures ReshapeColumns(cols) !! DroppedColumns
    ensures ReshapeColumns(cols) !! RenamedColumns
  {
  }

  // ---------------------------------------------------------------------------------------
  // The column rewrites

  /** Decimal digits of a natural number. */
  function NatToString(n: nat): (r: string)
    ensures r != [] && forall i :: 0 <= i < |r| ==> IsDigit(r[i])
  {
    var d := ['0' + (n % 10) as char];
    if n < 10 then d else NatToString(n / 10) + d
  }

  /** The number a string of decimal digits denotes, read from the most significant digit. */
  function DigitsValue(s: string): nat
    requires forall i :: 0 <= i < |s| ==> IsDigit(s[i])
  {
    if s == [] then 0
    else
      assert forall i :: 0 <= i < |s| - 1 ==> s[..|s| - 1][i] == s[i];
      assert IsDigit(s[|s| - 1]);
      10 * DigitsValue(s[..|s| - 1]) + (s[|s| - 1] as int - '0' as int)
  }

  /** The digits denote `n`, and only `0` is written with a leading zero. */
  lemma {:induction false} NatToStringValue(n: nat)
    ensures DigitsValue(NatToString(n)) == n
    ensures NatToString(n)[0] == '0' ==> n == 0
  {
    var r := NatToString(n);
    if n >= 10 {
      NatToStringValue(n / 10);
      assert r[..|r| - 1] == NatToString(n / 10);
    }
  }

  /** `str(n)` for an integer. */
  function IntToString(n: int): string {
    if n < 0 then "-" + NatToString(-n) else NatToString(n)
  }

  /** `astype(str)` of a cell that came from JSON. */
  function AsStr(v: Value): string
    requires IsRaw(v)
  {
    match v
    case NaN => "nan"
    case Null => "None"
    case Int(n) => IntToString(n)
    case Str(s) => s
  }

  /** `"C" + astype(str)`, the new customer id. */
  function CustomerId(v: Value): Value
    requires IsRaw(v)
  {
    Str("C" + AsStr(v))
  }

  /** `pd.to_datetime` on one cell: missing values become NaT, the rest go to the parser. */
  function ParseDate(env: Env, v: Value): DateParse {
    if v == NaN || v == Null then NaT else env.toDatetime(v)
  }

  function DateCell(p: DateParse): Value {
    match p
    case At(ns) => Time(ns)
    case _ => NaN
  }

  /** `astype(str).str.lower()` then `clean_text`. */
  function ReviewText(env: Env, v: Value): Value
    requires IsRaw(v)
  {
    Str(CleanText(env.unicode, Text(env.unicode.lower(AsStr(v)))))
  }

  /** `where(pd.notnull(df), None)` on one cell. */
  function NoneForNaN(v: Value): Value {
    if v == NaN then Null else v
  }

  function WithId(r: Row): Row
    requires "customer_id" in r && IsRaw(r["customer_id"])
  {
    r["customer_id" := CustomerId(r["customer_id"])]
  }

  function WithDate(env: Env, r: Row): Row
    requires "review_date" in r
  {
    r["review_date" := DateCell(ParseDate(env, r["review_date"]))]
  }

  function WithText(env: Env, r: Row): Row
    requires "review_text" in r && IsRaw(r["review_text"])
  {
    r["review_text" := ReviewText(env, r["review_text"])]
  }

  function NoneForNaNRow(r: Row): Row {
    map k | k in r :: NoneForNaN(r[k])
  }

  /** Every date of the table parses. */
  predicate DatesParse(env: Env, rows: seq<Row>)
    requires forall i :: 0 <= i < |rows| ==> "review_date" in rows[i]
  {
    forall i :: 0 <= i < |rows| ==> ParseDate(env, rows[i]["review_date"]) != Unparseable
  }

  /** The first error that lines 137 to 140 raise on a table with columns `cols`, if any. */
  function TransformError(env: Env, cols: set<string>, rows: seq<Row>): (err: Option<Cause>)
    requires forall i :: 0 <= i < |rows| ==> rows[i].Keys == cols
    ensures err.None? <==>
      "customer_id" in cols && "review_date" in cols && "review_text" in cols && DatesParse(env, rows)
  {
    if "customer_id" !in cols then Some(MissingColumn("customer_id"))
    else if "review_date" !in cols then Some(MissingColumn("review_date"))
    else if !DatesParse(env, rows) then Some(UnparseableDate)
    else if "review_text" !in cols then Some(MissingColumn("review_text"))
    else None
  }

  /** A reshaped row once every column rewrite has been applied. */
  function CanonicalRow(env: Env, r: Row): Row
    requires "customer_id" in r && "review_date" in r && "review_text" in r && RawRow(r)
  {
    NoneForNaNRow(WithText(env, WithDate(env, WithId(r))))
  }

  /** Every row once every column rewrite has been applied. */
  function CanonicalRows(env: Env, cols: set<string>, rows: seq<Row>): (out: seq<Row>)
    requires forall i :: 0 <= i < |rows| ==> rows[i].Keys == cols && RawRow(rows[i])
    requires TransformError(env, cols, rows).None?
    ensures |out| == |rows|
    ensures forall i :: 0 <= i < |rows| ==> out[i] == CanonicalRow(env, rows[i])
  {
    seq(|rows|, i requires 0 <= i < |rows| => CanonicalRow(env, rows[i]))
  }

  // ---------------------------------------------------------------------------------------
  // The rewrites as the source runs them: column by column, in place

  /** Line 137: `"C" + astype(str)` over the id column. */
  method AssignIds(df: array<Row>)
    requires forall i :: 0 <= i < df.Length ==> "customer_id" in df[i] && IsRaw(df[i]["customer_id"])
    modifies df
    ensures forall i :: 0 <= i < df.Length ==> df[i] == WithId(old(df[i]))
  {
    var i := 0;
    while i < df.Length
      invariant 0 <= i <= df.Length
      invariant forall k :: 0 <= k < i ==> df[k] == WithId(old(df[k]))
      invariant forall k :: i <= k < df.Length ==> df[k] == old(df[k])
    {
      df[i] := WithId(df[i]);
      i := i + 1;
    }
  }

  /** The parse that `pd.to_datetime` runs over the whole date column before it assigns
      anything: does every cell parse? */
  method DatesParseAll(env: Env, df: array<Row>) returns (ok: bool)
    requires forall i :: 0 <= i < df.Length ==> "review_date" in df[i]
    ensures ok == DatesParse(env, df[..])
  {
    var i := 0;
    while i < df.Length
      invariant 0 <= i <= df.Length
      invariant forall k :: 0 <= k < i ==> ParseDate(env, df[k]["review_date"]) != Unparseable
    {
      if ParseDate(env, df[i]["review_date"]) == Unparseable {
        assert df[..][i] == df[i];
        return false;
      }
      i := i + 1;
    }
    return true;
  }

  /** Line 138: the parsed dates replace the date column. */
  method AssignDates(env: Env, df: array<Row>)
    requires forall i :: 0 <= i < df.Length ==> "review_date" in df[i]
    modifies df
    ensures forall i :: 0 <= i < df.Length ==> df[i] == WithDate(env, old(df[i]))
  {
    var i := 0;
    while i < df.Length
      invariant 0 <= i <= df.Length
      invariant forall k :: 0 <= k < i ==> df[k] == WithDate(env, old(df[k]))
      invariant forall k :: i <= k < df.Length ==> df[k] == old(df[k])
    {
      df[i] := WithDate(env, df[i]);
      i := i + 1;
    }
  }

  /** Lines 139 and 140: the text column is lower-cased and cleaned. */
  method AssignTexts(env: Env, df: array<Row>)
    requires forall i :: 0 <= i < df.Length ==> "review_text" in df[i] && IsRaw(df[i]["review_text"])
    modifies df
    ensures forall i :: 0 <= i < df.Length ==> df[i] == WithText(env, old(df[i]))
  {
    var i := 0;
    while i < df.Length
      invariant 0 <= i <= df.Length
      invariant forall k :: 0 <= k < i ==> df[k] == WithText(env, old(df[k]))
      invariant forall k :: i <= k < df.Length ==> df[k] == old(df[k])
    {
      df[i] := WithText(env, df[i]);
      i := i + 1;
    }
  }

  /** Line 143: every missing cell becomes `None`. */
  method FillNone(df: array<Row>)
    modifies df
    ensures forall i :: 0 <= i < df.Length ==> df[i] == NoneForNaNRow(old(df[i]))
  {
    var i := 0;
    while i < df.Length
      invariant 0 <= i <= df.Length
      invariant forall k :: 0 <= k < i ==> df[k] == NoneForNaNRow(old(df[k]))
      invariant forall k :: i <= k < df.Length ==> df[k] == old(df[k])
    {
      df[i] := NoneForNaNRow(df[i]);
      i := i + 1;
    }
  }

  /** Lines 137 to 143 on a table with columns `cols`: the id column, then the date column,
      then the text column are rewritten for every row, then missing cells become `None`.
      An error leaves the table as far as the rewrites got. */
  method TransformColumns(env: Env, cols: set<string>, df: array<Row>) returns (err: Option<Cause>)
    requires forall i :: 0 <= i < df.Length ==> df[i].Keys == cols && RawRow(df[i])
    modifies df
    ensures err == TransformError(env, cols, old(df[..]))
    ensures err.None? ==>
      forall i :: 0 <= i < df.Length ==> df[i] == CanonicalRow(env, old(df[i]))
    ensures err == Some(MissingColumn("customer_id")) ==> df[..] == old(df[..])
    ensures err == Some(MissingColumn("review_date")) || err == Some(UnparseableDate) ==>
      "customer_id" in cols &&
      forall i :: 0 <= i < df.Length ==> RawRow(old(df[i])) && df[i] == WithId(old(df[i]))
    ensures err == Some(MissingColumn("review_text")) ==>
      "customer_id" in cols && "review_date" in cols &&
      forall i :: 0 <= i < df.Length ==>
        RawRow(old(df[i])) && df[i] == WithDate(env, WithId(old(df[i])))
  {
    if "customer_id" !in cols {
      return Some(MissingColumn("customer_id"));
    }
    ghost var rows0 := df[..];
    AssignIds(df);
    ghost var rows1 := df[..];
    if "review_date" !in cols {
      return Some(MissingColumn("review_date"));
    }
    assert forall i :: 0 <= i < df.Length ==> rows1[i]["review_date"] == rows0[i]["review_date"];
    var ok := DatesParseAll(env, df);
    if !ok {
      assert !DatesParse(env, rows0);
      return Some(UnparseableDate);
    }
    AssignDates(env, df);
    if "review_text" !in cols {
      return Some(MissingColumn("review_text"));
    }
    AssignTexts(env, df);
    FillNone(df);
    return None;
  }
}

=== FILE: TextClean.dfy ===
/** The review-text cleaner `clean_text` (backend/app/main.py, inside `data_clean`): a fixed
    sequence of whole-string rewrites, each modelled as a total function on strings. */
module TextClean {
  import opened Chars

  /** The Unicode tables the cleaner depends on and that this model does not contain:
      compatibility decomposition (NFKD, Unicode Standard Annex #15) and `str.lower`. */
  datatype Unicode = Unicode(nfkd: string -> string, lower: string -> string)

  /** The argument of `clean_text`: a Python `str`, or any other object. */
  datatype Arg = Text(s: string) | NotText

  /** Real NFKD leaves every ASCII string unchanged. */
  ghost predicate AsciiStable(u: Unicode) {
    forall s: string :: AllAscii(s) ==> u.nfkd(s) == s
  }

  predicate AllAscii(s: string) {
    forall i :: 0 <= i < |s| ==> IsAscii(s[i])
  }

  predicate IsNonAscii(c: char) {
    !IsAscii(c)
  }

  predicate IsJunk(c: char) {
    !IsKept(c)
  }

  // ---------------------------------------------------------------------------------------
  // The rewrites

  /** `re.sub(P+, " ", s)` for a character class P: each maximal run of characters of the class
      becomes one space. `inRun` records that the character before `s` belonged to a run whose
      space has already been emitted. */
  function SubRuns(s: string, p: char -> bool, inRun: bool): string
    decreases |s|
  {
    if s == [] then []
    else if p(s[0]) then (if inRun then [] else [' ']) + SubRuns(s[1..], p, true)
    else [s[0]] + SubRuns(s[1..], p, false)
  }

  /** `re.sub(r'[^\x00-\x7F]+', ' ', s)` */
  function StripNonAscii(s: string): string {
    SubRuns(s, IsNonAscii, false)
  }

  /** `re.sub(r"[^A-Za-z0-9' ]+", " ", s)` */
  function KeepWordChars(s: string): string {
    SubRuns(s, IsJunk, false)
  }

  /** An apostrophe is removed when `\B'` or `'(?!\w)` matches at it. Both are judged on the
      string before any removal: `\B'` holds when the character before is not a word character
      (or there is none), `'(?!\w)` when the one after is not (or there is none).
      `prevWord`: the character before `s` is a word character. */
  function DropStray(s: string, prevWord: bool): string
    decreases |s|
  {
    if s == [] then []
    else
      var keep := s[0] != '\'' || (prevWord && |s| > 1 && IsWordChar(s[1]));
      (if keep then [s[0]] else []) + DropStray(s[1..], IsWordChar(s[0]))
  }

  /** `re.sub(r"\B'|'(?!\w)", "", s)` */
  function DropStrayApostrophes(s: string): string {
    DropStray(s, false)
  }

  function TrimStart(s: string): string
    decreases |s|
  {
    if s != [] && IsSpace(s[0]) then TrimStart(s[1..]) else s
  }

  function TrimEnd(s: string): string
    decreases |s|
  {
    if s != [] && IsSpace(s[|s| - 1]) then TrimEnd(s[..|s| - 1]) else s
  }

  /** `re.sub(r"\s+", " ", s).strip()` */
  function CollapseSpaces(s: string): string {
    TrimEnd(TrimStart(SubRuns(s, IsSpace, false)))
  }

  /** Steps 2 to 5 of `clean_text`, everything after the decomposition. */
  function Scrub(s: string): string {
    CollapseSpaces(DropStrayApostrophes(KeepWordChars(StripNonAscii(s))))
  }

  /** `clean_text`: a non-string gives the empty string; a string is decomposed and scrubbed. */
  function CleanText(u: Unicode, x: Arg): (r: string)
    ensures x.NotText? ==> r == []
  {
    match x
    case NotText => []
    case Text(s) => Scrub(u.nfkd(s))
  }

  // ---------------------------------------------------------------------------------------
  // The output grammar

  /** What every result of `clean_text` looks like: only `[A-Za-z0-9' ]`, no space at either
      end, never two spaces in a row, and every apostrophe between two letters or digits. */
  predicate InGrammar(t: string) {
    && (forall i :: 0 <= i < |t| ==> IsKept(t[i]))
    && (t != [] ==> t[0] != ' ' && t[|t| - 1] != ' ')
    && (forall i :: 0 <= i < |t| - 1 ==> !(t[i] == ' ' && t[i + 1] == ' '))
    && (forall i :: 0 <= i < |t| && t[i] == '\'' ==>
          0 < i < |t| - 1 && IsAlnum(t[i - 1]) && IsAlnum(t[i + 1]))
  }

  /** Every apostrophe of `s` has a letter or digit on both sides; `prevAlnum` says whether
      the character before `s` is one. */
  predicate Flanked(s: string, prevAlnum: bool)
    decreases |s|
  {
    s == [] ||
    ((s[0] == '\'' ==> prevAlnum && |s| > 1 && IsAlnum(s[1])) && Flanked(s[1..], IsAlnum(s[0])))
  }

  /** No whitespace character of `s` follows another; `prevSpace` says whether the character
      before `s` is whitespace. */
  predicate SingleSpaced(s: string, prevSpace: bool)
    decreases |s|
  {
    s == [] || (!(IsSpace(s[0]) && prevSpace) && SingleSpaced(s[1..], IsSpace(s[0])))
  }
}

=== FILE: TextCleanLemmas.dfy ===
/** Properties of `clean_text`: its output grammar, idempotence, and how junk between two
    words turns into exactly one separator. */
module TextCleanLemmas {
  import opened Chars
  import opened TextClean

  // ---------------------------------------------------------------------------------------
  // Run substitution

  /** Every character of the result is a space or a character of `s` outside the class. */
  lemma {:induction false} SubRunsChars(s: string, p: char -> bool, inRun: bool)
    ensures forall c :: c in SubRuns(s, p, inRun) ==> c == ' ' || (c in s && !p(c))
    decreases |s|
  {
    if s != [] {
      SubRunsChars(s[1..], p, p(s[0]));
      assert forall c :: c in s[1..] ==> c in s;
    }
  }

  /** Nothing to replace: the substitution is the identity. */
  lemma {:induction false} SubRunsNoop(s: string, p: char -> bool, inRun: bool)
    requires forall i :: 0 <= i < |s| ==> !p(s[i])
    ensures SubRuns(s, p, inRun) == s
    decreases |s|
  {
    if s != [] {
      SubRunsNoop(s[1..], p, false);
    }
  }

  /** One step of the substitution: what the first character emits, then the rest. */
  lemma SubRunsStep(s: string, p: char -> bool, inRun: bool)
    requires s != []
    ensures SubRuns(s, p, inRun)
         == (if p(s[0]) then (if inRun then [] else [' ']) else [s[0]]) + SubRuns(s[1..], p, p(s[0]))
  {
  }

  lemma ConcatAssoc(a: string, b: string, c: string)
    ensures a + (b + c) == (a + b) + c
  {
  }

  /** The substitution works piece by piece. */
  lemma {:induction false} SubRunsAppend(x: string, y: string, p: char -> bool, inRun: bool)
    ensures SubRuns(x + y, p, inRun)
         == SubRuns(x, p, inRun) + SubRuns(y, p, if x == [] then inRun else p(x[|x| - 1]))
    decreases |x|
  {
    if x == [] {
      assert x + y == y;
    } else {
      var head := if p(x[0]) then (if inRun then [] else [' ']) else [x[0]];
      var flag := if x[1..] == [] then p(x[0]) else p(x[1..][|x[1..]| - 1]);
      assert flag == p(x[|x| - 1]);
      assert (x + y)[0] == x[0];
      assert (x + y)[1..] == x[1..] + y;
      SubRunsStep(x + y, p, inRun);
      SubRunsStep(x, p, inRun);
      SubRunsAppend(x[1..], y, p, p(x[0]));
      ConcatAssoc(head, SubRuns(x[1..], p, p(x[0])), SubRuns(y, p, flag));
    }
  }

  /** A non-empty run of the class alone collapses to one space, or to nothing if its space
      has already been emitted. */
  lemma {:induction false} SubRunsAllInClass(s: string, p: char -> bool, inRun: bool)
    requires s != []
    requires forall i :: 0 <= i < |s| ==> p(s[i])
    ensures SubRuns(s, p, inRun) == if inRun then [] else [' ']
    decreases |s|
  {
    if |s| > 1 {
      SubRunsAllInClass(s[1..], p, true);
    }
  }

  /** After collapsing whitespace no whitespace character follows another. */
  lemma {:induction false} CollapsedSingleSpaced(s: string, inRun: bool)
    ensures SingleSpaced(SubRuns(s, IsSpace, inRun), inRun)
    decreases |s|
  {
    if s != [] {
      CollapsedSingleSpaced(s[1..], IsSpace(s[0]));
      var r := SubRuns(s[1..], IsSpace, IsSpace(s[0]));
      if IsSpace(s[0]) && inRun {
        assert SubRuns(s, IsSpace, inRun) == r;
      } else if IsSpace(s[0]) {
        assert ([' '] + r)[1..] == r;
      } else {
        assert ([s[0]] + r)[1..] == r;
      }
    }
  }

  lemma FlankedWeaken(s: string, a: bool, b: bool)
    requires Flanked(s, a)
    requires a ==> b
    ensures Flanked(s, b)
  {
  }

  /** Collapsing whitespace keeps every apostrophe between its letters or digits. */
  lemma {:induction false} CollapsedFlanked(s: string, inRun: bool, prevAlnum: bool)
    requires Flanked(s, prevAlnum)
    ensures Flanked(SubRuns(s, IsSpace, inRun), prevAlnum)
    decreases |s|
  {
    if s != [] {
      var r := SubRuns(s[1..], IsSpace, IsSpace(s[0]));
      CollapsedFlanked(s[1..], IsSpace(s[0]), IsAlnum(s[0]));
      if IsSpace(s[0]) {
        if inRun {
          assert SubRuns(s, IsSpace, inRun) == r;
          FlankedWeaken(r, false, prevAlnum);
        } else {
          assert ([' '] + r)[1..] == r;
        }
      } else {
        assert ([s[0]] + r)[1..] == r;
        if s[0] == '\'' {
          assert r == [s[1]] + SubRuns(s[2..], IsSpace, false) by {
            assert s[1..][0] == s[1] && s[1..][1..] == s[2..];
          }
        }
      }
    }
  }

  /** Collapsing turns every whitespace character into a plain space. */
  lemma CollapsedChars(s: string, inRun: bool)
    requires forall i :: 0 <= i < |s| ==> IsKept(s[i])
    ensures forall c :: c in SubRuns(s, IsSpace, inRun) ==> IsKept(c)
  {
    SubRunsChars(s, IsSpace, inRun);
    forall c | c in s ensures IsKept(c) {
      var i :| 0 <= i < |s| && s[i] == c;
    }
  }

  /** With single spaces only, collapsing changes nothing. */
  lemma {:induction false} CollapseNoop(s: string, inRun: bool)
    requires SingleSpaced(s, inRun)
    requires forall i :: 0 <= i < |s| ==> (IsSpace(s[i]) ==> s[i] == ' ')
    ensures SubRuns(s, IsSpace, inRun) == s
    decreases |s|
  {
    if s != [] {
      CollapseNoop(s[1..], IsSpace(s[0]));
    }
  }

  // ---------------------------------------------------------------------------------------
  // Stray apostrophes

  lemma {:induction false} DropStrayChars(s: string, prevWord: bool)
    ensures forall c :: c in DropStray(s, prevWord) ==> c in s
    decreases |s|
  {
    if s != [] {
      DropStrayChars(s[1..], IsWordChar(s[0]));
      assert forall c :: c in s[1..] ==> c in s;
    }
  }

  /** On text made only of `[A-Za-z0-9' ]`, every apostrophe the removal keeps ends up
      between two letters or digits of the result. */
  lemma {:induction false} DropStrayFlanked(s: string, prevWord: bool, prevAlnum: bool)
    requires forall i :: 0 <= i < |s| ==> IsKept(s[i])
    requires prevWord ==> prevAlnum
    ensures Flanked(DropStray(s, prevWord), prevAlnum)
    decreases |s|
  {
    if s != [] {
      var r := DropStray(s[1..], IsWordChar(s[0]));
      var keep := s[0] != '\'' || (prevWord && |s| > 1 && IsWordChar(s[1]));
      KeptFacts(s[0]);
      if keep {
        DropStrayFlanked(s[1..], IsWordChar(s[0]), IsAlnum(s[0]));
        assert ([s[0]] + r)[1..] == r;
        if s[0] == '\'' {
          KeptFacts(s[1]);
          assert r == [s[1]] + DropStray(s[2..], IsWordChar(s[1])) by {
            assert s[1..][0] == s[1] && s[1..][1..] == s[2..];
          }
        }
      } else {
        DropStrayFlanked(s[1..], IsWordChar(s[0]), prevAlnum);
        assert DropStray(s, prevWord) == r;
      }
    }
  }

  /** Text with no stray apostrophe is left alone. */
  lemma {:induction false} DropStrayNoop(s: string, prevWord: bool, prevAlnum: bool)
    requires Flanked(s, prevAlnum)
    requires prevAlnum ==> prevWord
    ensures DropStray(s, prevWord) == s
    decreases |s|
  {
    if s != [] {
      DropStrayNoop(s[1..], IsWordChar(s[0]), IsAlnum(s[0]));
    }
  }

  /** Text with no apostrophe at all is left alone. */
  lemma {:induction false} DropStrayNoApostrophe(s: string, prevWord: bool)
    requires forall i :: 0 <= i < |s| ==> s[i] != '\''
    ensures DropStray(s, prevWord) == s
    decreases |s|
  {
    if s != [] {
      DropStrayNoApostrophe(s[1..], IsWordChar(s[0]));
    }
  }

  /** The string with every apostrophe taken out. */
  function NoApostrophes(s: string): string
    decreases |s|
  {
    if s == [] then [] else (if s[0] == '\'' then [] else [s[0]]) + NoApostrophes(s[1..])
  }

  /** The removal deletes apostrophes and nothing else: every other character stays, in order,
      and the result is no longer than the input. */
  lemma {:induction false} DropStrayOnlyApostrophes(s: string, prevWord: bool)
    ensures NoApostrophes(DropStray(s, prevWord)) == NoApostrophes(s)
    ensures |DropStray(s, prevWord)| <= |s|
    decreases |s|
  {
    if s != [] {
      var r := DropStray(s[1..], IsWordChar(s[0]));
      DropStrayOnlyApostrophes(s[1..], IsWordChar(s[0]));
      var keep := s[0] != '\'' || (prevWord && |s| > 1 && IsWordChar(s[1]));
      if keep {
        assert DropStray(s, prevWord) == [s[0]] + r;
        assert ([s[0]] + r)[1..] == r;
      } else {
        assert DropStray(s, prevWord) == r;
      }
    }
  }

  /** Removal is judged locally: text up to a character that is not an apostrophe is treated
      the same whatever follows. */
  lemma {:induction false} DropStrayAppend(a: string, t: string, prevWord: bool)
    requires a != [] && a[|a| - 1] != '\''
    ensures DropStray(a + t, prevWord)
         == DropStray(a, prevWord) + DropStray(t, IsWordChar(a[|a| - 1]))
    decreases |a|
  {
    var at := a + t;
    assert at[0] == a[0];
    if |a| == 1 {
      assert at[1..] == t;
    } else {
      assert at[1..] == a[1..] + t;
      assert at[1] == a[1];
      DropStrayAppend(a[1..], t, IsWordChar(a[0]));
      var keep := a[0] != '\'' || (prevWord && IsWordChar(a[1]));
      var k: string := if keep then [a[0]] else [];
      ConcatAssoc(k, DropStray(a[1..], IsWordChar(a[0])), DropStray(t, IsWordChar(a[|a| - 1])));
    }
  }

  /** An apostrophe with a word character on each side survives, whatever happens to the
      apostrophes around it. */
  lemma FlankedApostropheKept(a: string, b: string, prevWord: bool)
    requires a != [] && IsWordChar(a[|a| - 1])
    requires b != [] && IsWordChar(b[0])
    ensures DropStray(a + ['\''] + b, prevWord) == DropStray(a, prevWord) + ['\''] + DropStray(b, false)
  {
    var qb := ['\''] + b;
    assert a + ['\''] + b == a + qb;
    DropStrayAppend(a, qb, prevWord);
    assert qb[1..] == b && qb[1] == b[0];
    assert DropStray(qb, true) == ['\''] + DropStray(b, false);
  }

  /** An apostrophe with a non-word character (or nothing) on either side in the input is
      deleted, whatever happens around it. */
  lemma StrayApostropheDropped(a: string, b: string, prevWord: bool)
    requires a != [] && a[|a| - 1] != '\''
    requires !IsWordChar(a[|a| - 1]) || b == [] || !IsWordChar(b[0])
    ensures DropStray(a + ['\''] + b, prevWord) == DropStray(a, prevWord) + DropStray(b, false)
  {
    var qb := ['\''] + b;
    assert a + ['\''] + b == a + qb;
    DropStrayAppend(a, qb, prevWord);
    assert qb[1..] == b && !IsWordChar('\'');
    assert |qb| > 1 ==> qb[1] == b[0];
    assert DropStray(qb, IsWordChar(a[|a| - 1])) == DropStray(b, false);
  }

  /** An apostrophe at the very start, where `\B` holds, is deleted. */
  lemma LeadingApostropheDropped(b: string)
    ensures DropStray(['\''] + b, false) == DropStray(b, false)
  {
    assert (['\''] + b)[1..] == b;
  }

  /** A doubled apostrophe between two words is removed completely. */
  lemma DoubledApostropheDropped()
    ensures DropStrayApostrophes("a''b") == "ab"
  {
    assert !IsWordChar('\'');
    StrayApostropheDropped("a", "'b", false);
    assert "a" + ['\''] + "'b" == "a''b";
    assert DropStray("'b", false) == DropStray("b", false) by {
      LeadingApostropheDropped("b");
      assert ['\''] + "b" == "'b";
    }
  }

  // ---------------------------------------------------------------------------------------
  // Trimming

  lemma {:induction false} TrimStartFacts(s: string, prevSpace: bool)
    requires Flanked(s, false)
    requires SingleSpaced(s, prevSpace)
    ensures var r := TrimStart(s);
      && (forall c :: c in r ==> c in s)
      && Flanked(r, false) && SingleSpaced(r, false)
      && (r != [] ==> !IsSpace(r[0]))
    decreases |s|
  {
    if s != [] && IsSpace(s[0]) {
      TrimStartFacts(s[1..], true);
      assert forall c :: c in s[1..] ==> c in s;
    }
  }

  /** `lstrip()`: the result is a suffix of the input, everything removed is whitespace, and
      the result does not start with whitespace. */
  lemma {:induction false} TrimStartRemovesSpaces(s: string)
    ensures var r := TrimStart(s);
      && |r| <= |s| && r == s[|s| - |r|..]
      && (forall i :: 0 <= i < |s| - |r| ==> IsSpace(s[i]))
      && (r != [] ==> !IsSpace(r[0]))
    decreases |s|
  {
    if s != [] && IsSpace(s[0]) {
      TrimStartRemovesSpaces(s[1..]);
      var r := TrimStart(s[1..]);
      assert s[1..][|s| - 1 - |r|..] == s[|s| - |r|..];
      forall i | 1 <= i < |s| - |r| ensures IsSpace(s[i]) {
        assert s[i] == s[1..][i - 1];
      }
    }
  }

  /** `rstrip()`: the result is a prefix of the input, everything removed is whitespace, and
      the result does not end with whitespace. */
  lemma {:induction false} TrimEndRemovesSpaces(s: string)
    ensures var r := TrimEnd(s);
      && |r| <= |s| && r == s[..|r|]
      && (forall i :: |r| <= i < |s| ==> IsSpace(s[i]))
      && (r != [] ==> !IsSpace(r[|r| - 1]))
    decreases |s|
  {
    if s != [] && IsSpace(s[|s| - 1]) {
      var p := s[..|s| - 1];
      TrimEndRemovesSpaces(p);
      var r := TrimEnd(p);
      assert p[..|r|] == s[..|r|];
      forall i | |r| <= i < |s| - 1 ensures IsSpace(s[i]) {
        assert s[i] == p[i];
      }
    }
  }

  /** Dropping a last character that is not a letter or digit keeps apostrophes flanked. */
  lemma {:induction false} FlankedDropLast(s: string, prevAlnum: bool)
    requires s != [] && !IsAlnum(s[|s| - 1])
    requires Flanked(s, prevAlnum)
    ensures Flanked(s[..|s| - 1], prevAlnum)
    decreases |s|
  {
    if |s| > 1 {
      assert s[1..][..|s[1..]| - 1] == s[..|s| - 1][1..];
      FlankedDropLast(s[1..], IsAlnum(s[0]));
    }
  }

  lemma {:induction false} SingleSpacedDropLast(s: string, prevSpace: bool)
    requires s != []
    requires SingleSpaced(s, prevSpace)
    ensures SingleSpaced(s[..|s| - 1], prevSpace)
    decreases |s|
  {
    if |s| > 1 {
      assert s[1..][..|s[1..]| - 1] == s[..|s| - 1][1..];
      SingleSpacedDropLast(s[1..], IsSpace(s[0]));
    }
  }

  lemma {:induction false} TrimEndFacts(s: string)
    requires Flanked(s, false)
    requires SingleSpaced(s, false)
    ensures var r := TrimEnd(s);
      && |r| <= |s| && r == s[..|r|]
      && Flanked(r, false) && SingleSpaced(r, false)
      && (r != [] ==> !IsSpace(r[|r| - 1]))
    decreases |s|
  {
    if s != [] && IsSpace(s[|s| - 1]) {
      FlankedDropLast(s, false);
      SingleSpacedDropLast(s, false);
      TrimEndFacts(s[..|s| - 1]);
    }
  }

  // ---------------------------------------------------------------------------------------
  // The recursive predicates in terms of positions

  lemma {:induction false} FlankedAt(s: string, prevAlnum: bool)
    ensures Flanked(s, prevAlnum) <==>
      && (s != [] && s[0] == '\'' ==> prevAlnum)
      && forall i :: 0 <= i < |s| && s[i] == '\'' ==>
           i + 1 < |s| && IsAlnum(s[i + 1]) && (i > 0 ==> IsAlnum(s[i - 1]))
    decreases |s|
  {
    if s != [] {
      var t := s[1..];
      FlankedAt(t, IsAlnum(s[0]));
      if Flanked(s, prevAlnum) {
        forall i | 0 < i < |s| && s[i] == '\''
          ensures i + 1 < |s| && IsAlnum(s[i + 1]) && IsAlnum(s[i - 1])
        {
          assert t[i - 1] == '\'';
          if i > 1 { assert t[i - 2] == s[i - 1]; }
          assert t[i] == s[i + 1];
        }
      } else if !(s[0] == '\'' ==> prevAlnum && |s| > 1 && IsAlnum(s[1])) {
      } else {
        assert !Flanked(t, IsAlnum(s[0]));
        if t != [] && t[0] == '\'' && !IsAlnum(s[0]) {
          assert s[1] == '\'';
        } else {
          var j :| 0 <= j < |t| && t[j] == '\'' &&
            !(j + 1 < |t| && IsAlnum(t[j + 1]) && (j > 0 ==> IsAlnum(t[j - 1])));
          assert s[j + 1] == '\'';
          if j > 0 { assert t[j - 1] == s[j]; }
          if j + 1 < |t| { assert t[j + 1] == s[j + 2]; }
        }
      }
    }
  }

  lemma {:induction false} SingleSpacedAt(s: string, prevSpace: bool)
    ensures SingleSpaced(s, prevSpace) <==>
      && (s != [] && IsSpace(s[0]) ==> !prevSpace)
      && forall i :: 0 < i < |s| && IsSpace(s[i]) ==> !IsSpace(s[i - 1])
    decreases |s|
  {
    if s != [] {
      var t := s[1..];
      SingleSpacedAt(t, IsSpace(s[0]));
      if SingleSpaced(s, prevSpace) {
        forall i | 0 < i < |s| && IsSpace(s[i]) ensures !IsSpace(s[i - 1]) {
          assert t[i - 1] == s[i];
          if i > 1 { assert t[i - 2] == s[i - 1]; }
        }
      } else if IsSpace(s[0]) && prevSpace {
      } else {
        assert !SingleSpaced(t, IsSpace(s[0]));
        if t != [] && IsSpace(t[0]) && IsSpace(s[0]) {
          assert IsSpace(s[1]);
        } else {
          var j :| 0 < j < |t| && IsSpace(t[j]) && IsSpace(t[j - 1]);
          assert s[j + 1] == t[j] && s[j] == t[j - 1];
        }
      }
    }
  }

  // ---------------------------------------------------------------------------------------
  // The cleaner as a whole

  /** After the first three passes only kept characters are left and every apostrophe
      stands between two letters or digits. */
  lemma MiddlePassesKept(s: string)
    ensures var s4 := DropStrayApostrophes(KeepWordChars(StripNonAscii(s)));
      (forall i :: 0 <= i < |s4| ==> IsKept(s4[i])) && Flanked(s4, false)
  {
    var s2 := StripNonAscii(s);
    var s3 := KeepWordChars(s2);
    SubRunsChars(s2, IsJunk, false);
    assert forall i :: 0 <= i < |s3| ==> IsKept(s3[i]) by {
      forall i | 0 <= i < |s3| ensures IsKept(s3[i]) { assert s3[i] in s3; }
    }
    var s4 := DropStrayApostrophes(s3);
    DropStrayChars(s3, false);
    forall i | 0 <= i < |s4| ensures IsKept(s4[i]) {
      assert s4[i] in s4;
      var j :| 0 <= j < |s3| && s3[j] == s4[i];
    }
    DropStrayFlanked(s3, false, false);
  }

  /** Collapsing and trimming the whitespace of such a text keeps its characters and its
      apostrophes flanked, leaves no whitespace next to whitespace and none at either end. */
  lemma CollapsedShape(s4: string)
    requires forall i :: 0 <= i < |s4| ==> IsKept(s4[i])
    requires Flanked(s4, false)
    ensures var r := CollapseSpaces(s4);
      && (forall i :: 0 <= i < |r| ==> IsKept(r[i]))
      && Flanked(r, false) && SingleSpaced(r, false)
      && (r != [] ==> !IsSpace(r[0]) && !IsSpace(r[|r| - 1]))
  {
    var c := SubRuns(s4, IsSpace, false);
    CollapsedChars(s4, false);
    CollapsedSingleSpaced(s4, false);
    CollapsedFlanked(s4, false, false);
    var l := TrimStart(c);
    TrimStartFacts(c, false);
    var r := TrimEnd(l);
    TrimEndFacts(l);
    forall i | 0 <= i < |r| ensures IsKept(r[i]) {
      assert r[i] == l[i] && l[i] in l;
    }
    if r != [] {
      assert r[0] == l[0];
    }
  }

  /** The positional reading of those facts is the output grammar. */
  lemma ShapeInGrammar(r: string)
    requires forall i :: 0 <= i < |r| ==> IsKept(r[i])
    requires Flanked(r, false) && SingleSpaced(r, false)
    requires r != [] ==> !IsSpace(r[0]) && !IsSpace(r[|r| - 1])
    ensures InGrammar(r)
  {
    FlankedAt(r, false);
    SingleSpacedAt(r, false);
    forall i | 0 <= i < |r| - 1 ensures !(r[i] == ' ' && r[i + 1] == ' ') {
      assert IsSpace(r[i + 1]) ==> !IsSpace(r[i]);
    }
  }

  /** Whatever the decomposition produced, the scrubbed text is in the output grammar. */
  lemma ScrubInGrammar(s: string)
    ensures InGrammar(Scrub(s))
  {
    var s4 := DropStrayApostrophes(KeepWordChars(StripNonAscii(s)));
    MiddlePassesKept(s);
    CollapsedShape(s4);
    ShapeInGrammar(CollapseSpaces(s4));
  }

  /** `clean_text` returns text in the output grammar for every argument. */
  lemma CleanTextInGrammar(u: Unicode, x: Arg)
    ensures InGrammar(CleanText(u, x))
  {
    if x.Text? {
      ScrubInGrammar(u.nfkd(x.s));
    }
  }

  /** Text already in the grammar passes every step unchanged. */
  lemma ScrubFixesGrammar(t: string)
    requires InGrammar(t)
    ensures Scrub(t) == t
  {
    assert forall i :: 0 <= i < |t| ==> IsAscii(t[i]) && !IsJunk(t[i]) by {
      forall i | 0 <= i < |t| ensures IsAscii(t[i]) && !IsJunk(t[i]) { KeptFacts(t[i]); }
    }
    SubRunsNoop(t, IsNonAscii, false);
    SubRunsNoop(t, IsJunk, false);
    FlankedAt(t, false);
    DropStrayNoop(t, false, false);
    assert forall i :: 0 <= i < |t| ==> (IsSpace(t[i]) <==> t[i] == ' ') by {
      forall i | 0 <= i < |t| ensures IsSpace(t[i]) <==> t[i] == ' ' { KeptFacts(t[i]); }
    }
    SingleSpacedAt(t, false);
    CollapseNoop(t, false);
    assert TrimStart(t) == t;
    assert TrimEnd(t) == t;
  }

  /** `clean_text` is idempotent, given that NFKD leaves ASCII text alone. */
  lemma CleanTextIdempotent(u: Unicode, x: Arg)
    requires AsciiStable(u)
    ensures CleanText(u, Text(CleanText(u, x))) == CleanText(u, x)
  {
    var t := CleanText(u, x);
    CleanTextInGrammar(u, x);
    assert AllAscii(t) by {
      forall i | 0 <= i < |t| ensures IsAscii(t[i]) { KeptFacts(t[i]); }
    }
    assert u.nfkd(t) == t;
    ScrubFixesGrammar(t);
  }

  predicate IsWord(w: string) {
    w != [] && forall i :: 0 <= i < |w| ==> IsAlnum(w[i])
  }

  /** Junk between two words: no letter, digit or apostrophe. */
  predicate IsSeparator(j: string) {
    j != [] && forall i :: 0 <= i < |j| ==> !IsAlnum(j[i]) && j[i] != '\''
  }

  /** A substitution that has nothing to replace in `a` or `b` only rewrites the middle. */
  lemma SubRunsMiddle(a: string, j: string, b: string, p: char -> bool)
    requires a != []
    requires forall i :: 0 <= i < |a| ==> !p(a[i])
    requires forall i :: 0 <= i < |b| ==> !p(b[i])
    ensures SubRuns(a + j + b, p, false) == a + SubRuns(j, p, false) + b
  {
    SubRunsNoop(a, p, false);
    SubRunsNoop(b, p, if a + j == [] then false else p((a + j)[|a + j| - 1]));
    SubRunsAppend(a + j, b, p, false);
    SubRunsAppend(a, j, p, false);
  }

  /** The non-ASCII pass keeps a separator a separator. */
  lemma StripNonAsciiSeparator(j: string)
    requires IsSeparator(j)
    ensures IsSeparator(SubRuns(j, IsNonAscii, false))
  {
    var j2 := SubRuns(j, IsNonAscii, false);
    SubRunsChars(j, IsNonAscii, false);
    forall i | 0 <= i < |j2| ensures !IsAlnum(j2[i]) && j2[i] != '\'' {
      assert j2[i] in j2;
      if j2[i] != ' ' {
        var k :| 0 <= k < |j| && j[k] == j2[i];
      }
    }
  }

  /** The punctuation pass turns a separator into spaces only. */
  lemma KeepWordCharsSeparator(j: string)
    requires IsSeparator(j)
    ensures var j3 := SubRuns(j, IsJunk, false);
      j3 != [] && forall i :: 0 <= i < |j3| ==> j3[i] == ' '
  {
    var j3 := SubRuns(j, IsJunk, false);
    SubRunsChars(j, IsJunk, false);
    forall i | 0 <= i < |j3| ensures j3[i] == ' ' {
      assert j3[i] in j3;
    }
  }

  /** The first two passes turn the separator between two words into a run of spaces. */
  lemma FirstPassesSeparate(a: string, j: string, b: string)
    requires IsWord(a) && IsSeparator(j) && IsWord(b)
    ensures var sp := SubRuns(SubRuns(j, IsNonAscii, false), IsJunk, false);
      && sp != [] && (forall i :: 0 <= i < |sp| ==> sp[i] == ' ')
      && KeepWordChars(StripNonAscii(a + j + b)) == a + sp + b
  {
    SubRunsMiddle(a, j, b, IsNonAscii);
    var j2 := SubRuns(j, IsNonAscii, false);
    StripNonAsciiSeparator(j);
    SubRunsMiddle(a, j2, b, IsJunk);
    KeepWordCharsSeparator(j2);
  }

  /** The last two passes leave two words around a run of spaces with exactly one space. */
  lemma LastPassesJoin(a: string, sp: string, b: string)
    requires IsWord(a) && IsWord(b)
    requires sp != [] && forall i :: 0 <= i < |sp| ==> sp[i] == ' '
    ensures CollapseSpaces(DropStrayApostrophes(a + sp + b)) == a + " " + b
  {
    forall i | 0 <= i < |a| ensures IsKept(a[i]) && !IsSpace(a[i]) { }
    forall i | 0 <= i < |b| ensures IsKept(b[i]) && !IsSpace(b[i]) { }
    var s3 := a + sp + b;
    assert forall i :: 0 <= i < |s3| ==> s3[i] != '\'' by {
      forall i | 0 <= i < |s3| ensures s3[i] != '\'' {
        if i < |a| { assert s3[i] == a[i]; }
        else if i < |a| + |sp| { assert s3[i] == sp[i - |a|]; }
        else { assert s3[i] == b[i - |a| - |sp|]; }
      }
    }
    DropStrayNoApostrophe(s3, false);
    SubRunsMiddle(a, sp, b, IsSpace);
    SubRunsAllInClass(sp, IsSpace, false);
    var c := a + " " + b;
    assert SubRuns(s3, IsSpace, false) == c;
    assert TrimStart(c) == c;
    assert c[|c| - 1] == b[|b| - 1];
    assert TrimEnd(c) == c;
  }

  /** A run of non-ASCII characters, punctuation or whitespace between two words becomes
      exactly one space: the words are separated, never joined. */
  lemma ScrubSeparates(a: string, j: string, b: string)
    requires IsWord(a) && IsSeparator(j) && IsWord(b)
    ensures Scrub(a + j + b) == a + " " + b
  {
    FirstPassesSeparate(a, j, b);
    LastPassesJoin(a, SubRuns(SubRuns(j, IsNonAscii, false), IsJunk, false), b);
  }

  /** `clean_text` separates two words whatever the decomposition put between them. */
  lemma CleanTextSeparates(u: Unicode, s: string, a: string, j: string, b: string)
    requires u.nfkd(s) == a + j + b
    requires IsWord(a) && IsSeparator(j) && IsWord(b)
    ensures CleanText(u, Text(s)) == a + " " + b
  {
    ScrubSeparates(a, j, b);
  }
}

=== FILE: Wrappers.dfy ===
/** Option and Result values used across the model in place of Python's None and exceptions. */
module Wrappers {

  datatype Option<+T> = None | Some(value: T)

  datatype Result<+R, +E> = Success(value: R) | Failure(error: E)
}
